=== FILE: README.md ===
# chumpchange, modelled in Dafny

chumpchange guards the records of an ActiveRecord model class. One attribute
of the model is the *control column* (a `state`, say). For each value of that
column, a `Definition` lists three things:

- which of the record's own fields may change;
- which fields of linked records may change;
- whether records may be added to or removed from the model's collection
  associations.

Some rules hold under every value: *always prevent* and *always allow*. Some
associations can be marked *untracked*. New records skip every check. The first
checked save of an existing record, or the first collection change on an
existing owner, checks the rules against the model's schema. A latch
remembers only success: a configuration that fails is checked again, and
raises again, on every later checked save. Before every save, and before every change to a
collection, a hook on the record asks the `Definition` whether the change
passes. A per-thread toggle can switch the whole mechanism off around a block.

The project models that core:

- `chump_change.dfy`, module `ChumpChange`. The policy engine `Definition` is
  a class whose fields are the four rule stores, the untracked list, the
  per-instance confirmation setting and the confirmation latch. It covers:
  - the rule builder: `AlwaysPreventChange`, `AlwaysAllowChange`,
    `PreventChangeFor` and `AllowChangeFor`;
  - the validator: `Validate`, `ConfirmSpecifiedAttributes` and the
    per-value loop `FindInvalidValue`;
  - the field evaluator: `FieldsAllowedForValue` and `CanModifyFields`;
  - the association evaluator: `ConfigForAssociation`, its two readers,
    `CanModifyAssociationAttributes`, `CheckForDisallowedChanges`,
    `CanAlterAssociationCollection` and `FindMatchingAssociationDefinition`.

  The methods that loop or update the stores in place are proved against
  pure specification functions: `Resolve`, `WriteBack`, `AllowedOperations`,
  `AssociationCheck`, `Prune`, `AlterCheck`, `AlterConfig` and `Validate`.
- `guardian.dfy`, module `Guardian`. The instance side of a governed record:
  - `current_control_value` and `allowable_change_fields`;
  - the `guard_before_create` / `guard_before_delete` hooks;
  - the `before_save` hook `review_model_value_changes`, with its
    `@chump_change_new_record` latch.
- `status.dfy`, module `Status`. The enforcement toggle as a class with one
  three-valued flag. The block handed to the scoped helpers is a small
  command language (toggle steps, nested helpers, a final value or an
  exception). This lets the model state restoration on exceptional exits.
- `ruby_array.dfy` and `ruby_hash.dfy` give Ruby's `Array#-`, `Array#&` and
  `uniq` exactly: order and repetitions are kept as Ruby keeps them. They
  also give an insertion-ordered Hash. This matters because each check's
  "first failure" follows hash order.
- `wrappers.dfy` holds `Option`, `Result` and `Outcome`, plus `FirstFailure`,
  the shape of an `each` loop whose body may raise.
- `properties.dfy`, module `Properties`, holds lemmas that relate several
  operations. It ends with a worked widget configuration.

Ruby symbols and strings are kept apart (`Name = Sym | Str`). The ORM returns
a linked class's `attribute_names` as strings, and the engine compares the
changed fields as symbols. This difference decides several results. For
example, a default `attributes` list taken from the linked class never
allows a change at save time. Raises are `Fail` values that name the cause
and the offending names. A nil control value reaching `nil.to_sym` becomes
the explicit failure `NilControlValue`.

A definition reads as if it were fixed once its rules are validated. The
code changes the stored configuration in two places, and the model follows
the code:

- `config_for_association` `merge!`s its defaults into the stored policy
  hash (`WriteBack`). `WriteBackKeepsResolution` and
  `WriteBackKeepsAssociationCheck` prove that later decisions cannot observe
  this.
- `can_modify_association_attributes?` deletes the untracked associations
  from the stored table of the value being checked (`Prune`). This is
  observable: `PruningUnlocksUntracked` shows that such an association then
  resolves to the permissive defaults.

## Model

| member | source | states |
|---|---|---|
| RubyArray.Minus | lib/chump_change.rb:85 | `a - b` keeps exactly the elements of `a` not in `b`, is no longer than `a`, keeps `a` duplicate-free, and is empty exactly when every element of `a` is in `b` |
| RubyArray.Uniq | lib/chump_change.rb:152 | `uniq` has the same elements as its input, without duplicates |
| RubyArray.Intersect | lib/chump_change.rb:82 | `a & b` holds exactly the common elements, without duplicates, and is empty exactly when the two share nothing |
| RubyHash.Dict.Put | lib/chump_change.rb:75-76 | `h[k] = v` maps `k` to `v`, leaves every other key alone, keeps an existing key's position and appends a new key |
| RubyHash.Dict.Delete | lib/chump_change.rb:97 | `h.delete(k)` removes `k` only and keeps the order of the rest |
| RubyHash.Dict.PutEach | lib/chump_change.rb:74-77 | assigning one value to each key of a list maps exactly those keys to it and keeps every other entry and the earlier key order |
| RubyHash.Dict.DeleteEach | lib/chump_change.rb:96-98 | deleting each key of a list removes exactly those keys and leaves the others, in order, with their values |
| Wrappers.FirstFailure | lib/chump_change.rb:100-109 | an `each` loop whose body may raise passes exactly when every element passes, and otherwise raises what the first failing element raised |
| Status.Without | lib/status.rb:21-32 | `without_attribute_control` runs the block disabled, returns its result or exception (nil without a block), and on exit leaves the flag enabled unless it was disabled before |
| Status.With | lib/status.rb:34-45 | `with_attribute_control` runs the block enabled, returns its result or exception (nil without a block), and on exit disables again only if it was disabled before |
| Status.ScopedBlockPreservesDisabled | lib/status.rb:21-45 | a block that toggles only through the scoped helpers leaves `attribute_control_disabled?` as it found it, on a normal and on a raising exit |
| Status.WithoutRestores | lib/status.rb:21-32 | after `without_attribute_control`, on any exit, the flag is disabled exactly when it was before, and a flag that was not disabled (even unset) is now enabled |
| Status.ScopedBlockKeepsSetFlag | lib/status.rb:21-45 | a block that toggles only through the scoped helpers, started from a set flag (`true` or `false`), leaves exactly that flag on a normal and on a raising exit |
| Status.WithRestores | lib/status.rb:34-45 | after `with_attribute_control`, on any exit, the flag is disabled exactly when it was before, and a flag that was not disabled (even `nil`) ends enabled |
| Status.NestedWithoutEnablesOnce | lib/status.rb:22-28 | in `without` nested in `without` the inner exit leaves control disabled, so the rest of the outer block runs disabled and gives the outer exit (an inner exception is the outer exit); only the outer exit enables it |
| Status.ControlStatus.AttributeControlDisabled | lib/status.rb:5-7 | `attribute_control_disabled?` holds only for a flag that is `true`: never together with `attribute_control_enabled?`, and never for an unset flag |
| Status.ControlStatus.AttributeControlEnabled | lib/status.rb:9-11 | `attribute_control_enabled?` holds only for a flag that is `false`: never together with `attribute_control_disabled?`, and never for an unset flag |
| Status.ControlStatus.constructor | lib/status.rb:5-11 | the flag starts unset, so neither `attribute_control_disabled?` nor `attribute_control_enabled?` holds |
| Status.ControlStatus.DisableAttributeControl | lib/status.rb:13-15 | afterwards only `attribute_control_disabled?` holds |
| Status.ControlStatus.EnableAttributeControl | lib/status.rb:17-19 | afterwards only `attribute_control_enabled?` holds |
| Status.ControlStatus.WithoutAttributeControl | lib/status.rb:21-32 | the flag and exit are those of `Without` from the flag before the call |
| Status.ControlStatus.WithAttributeControl | lib/status.rb:34-45 | the flag and exit are those of `With` from the flag before the call |
| Status.ControlStatus.Yield | lib/status.rb:26 | running the block updates the flag and exits as `Run` says, stopping at the first exception |
| ChumpChange.Resolve | lib/chump_change.rb:155-161 | the resolved policy has every key; a key stored for the value and association wins; a missing `attributes` is the linked class's attribute names and a missing `allow_*` is true |
| ChumpChange.WriteBack | lib/chump_change.rb:160 | the `merge!` write-back keeps the configuration well formed and keeps every value's and every table's keys in order |
| ChumpChange.AllowedOperations | lib/chump_change.rb:169-180 | the allowed operations are among `:create` and `:delete`, in that order, each present exactly when its flag is not `false` |
| ChumpChange.CheckForDisallowedChanges | lib/chump_change.rb:114-119 | a nil or new linked record passes; an existing one passes exactly when each changed field (as a symbol) is in `attributes` (`[]` when absent); otherwise it raises naming the association and exactly the offending fields |
| ChumpChange.CheckRecords | lib/chump_change.rb:103-105 | a collection passes exactly when every record passes, otherwise raises the first failing record's error |
| ChumpChange.CheckTable | lib/chump_change.rb:100-109 | the associations are visited in table order; the check passes exactly when each association passes and otherwise raises the first failure |
| ChumpChange.CheckTableInOrder | lib/chump_change.rb:100-109 | the `each_pair` loop returns what `CheckTable` specifies |
| ChumpChange.CheckRecordsInOrder | lib/chump_change.rb:103-105 | the `each` loop over a collection returns what `CheckRecords` specifies |
| ChumpChange.TableFor | lib/chump_change.rb:93 | the table stored for a value, or `{}`, is a well-formed hash |
| ChumpChange.Prune | lib/chump_change.rb:93-98 | only the stored table of the checked value changes, and it loses exactly the untracked associations |
| ChumpChange.AssociationCheck | lib/chump_change.rb:91-112 | a nil control value fails with `NilControlValue`; otherwise the check passes exactly when every association configured for the value and not untracked passes, and otherwise raises the first failure among those associations in table order |
| ChumpChange.SameChecks | lib/chump_change.rb:100-109 | the check of a table reads only the entries of the associations it visits, so pruning the untracked ones does not change it |
| ChumpChange.FirstNamed | lib/chump_change.rb:138 | the association found carries the name, and none is found exactly when no association has it |
| ChumpChange.FirstOfClass | lib/chump_change.rb:142 | `detect` finds the first association linking to the class, and finds none exactly when none links to it |
| ChumpChange.Definition.constructor | lib/chump_change.rb:14-34 | a new definition always prevents `created_at`, always allows the control column exactly when it is one of the attributes, has empty stores, confirms every save per instance and is not yet confirmed |
| ChumpChange.Definition.New | lib/chump_change.rb:14-34 | construction fails with `MissingControlColumn` exactly when `:control_by` is missing; otherwise the new definition has the model's attributes as symbols and its reflections, always prevents `created_at`, always allows exactly the control column when it is one of those attributes, has empty stores and no untracked associations, confirms every save per instance and is not yet confirmed |
| ChumpChange.Definition.SetConfirmEverySavePerInstance | lib/chump_change.rb:40-42 | sets the per-instance confirmation setting |
| ChumpChange.Definition.AlwaysPreventChange | lib/chump_change.rb:48-50 | appends the fields to always-prevent |
| ChumpChange.Definition.AlwaysAllowChange | lib/chump_change.rb:52-55 | appends `attributes` to always-allow and `associations` to the untracked list, each only when given |
| ChumpChange.Definition.LockedTableLocksEvery | lib/chump_change.rb:62-65 | the table `prevent_change_for` builds holds exactly the model's associations, each locked |
| ChumpChange.Definition.LockAll | lib/chump_change.rb:62-65 | the loop over the reflections builds that locked table |
| ChumpChange.Definition.PreventChangeFor | lib/chump_change.rb:57-68 | each value, as a symbol, now maps to no fields and to the locked table, replacing any earlier entry; every other value is kept |
| ChumpChange.Definition.AllowChangeFor | lib/chump_change.rb:70-78 | each value, as a symbol, now maps to the given attributes (default `[]`) and association table (default `{}`), replacing any earlier entry |
| ChumpChange.Definition.FieldsAllowedForValue | lib/chump_change.rb:150-153 | without duplicates, exactly the fields that are not always prevented and are always allowed or listed for the value (every attribute when the value has no entry) |
| ChumpChange.Definition.CanModifyFields | lib/chump_change.rb:80-89 | passes exactly when each changed field is always allowed, or is not always prevented and is allowed; otherwise raises, naming first the prevented and not allowed fields, or failing that the fields outside allowed and always-allow |
| ChumpChange.Definition.ReflectOnAssociation | lib/chump_change.rb:138 | finds the model's association of that name, or nil exactly when there is none |
| ChumpChange.Definition.FindMatchingAssociationDefinition | lib/chump_change.rb:134-146 | the singular name wins, then the plural, then the first association whose class is the demodulized class name; it fails with `AssociationNotFound` exactly when none matches |
| ChumpChange.Definition.ConfigForAssociation | lib/chump_change.rb:155-162 | returns the `Resolve`d policy and leaves the configuration `WriteBack` describes |
| ChumpChange.Definition.FieldsAllowedForAssociationForValue | lib/chump_change.rb:164-167 | returns the resolved `attributes` and writes the defaults back |
| ChumpChange.Definition.OperationsAllowedForAssociationForValue | lib/chump_change.rb:169-180 | the loop builds `AllowedOperations` of the resolved policy and writes the defaults back |
| ChumpChange.Definition.CanModifyAssociationAttributes | lib/chump_change.rb:91-112 | returns `AssociationCheck` of the configuration before the call and leaves it pruned of the untracked associations for the checked value |
| ChumpChange.Definition.WithoutUntracked | lib/chump_change.rb:96-98 | the deletion loop gives the table without the untracked associations |
| ChumpChange.Definition.AlterCheck | lib/chump_change.rb:121-132 | an unknown action fails first, then an unmatched class, then a nil control value; otherwise the action passes exactly when its stored `allow_*` is not `false`, and a denial names the action and the association |
| ChumpChange.Definition.AlterConfig | lib/chump_change.rb:126 | what `can_alter_association_collection?` leaves stored is well formed |
| ChumpChange.Definition.CanAlterAssociationCollection | lib/chump_change.rb:121-132 | returns `AlterCheck` and leaves `AlterConfig` |
| ChumpChange.Definition.FirstInvalidValue | lib/chump_change.rb:197-200 | none is found exactly when every value's fields are known; otherwise it is the first value, in registration order, with an unknown field |
| ChumpChange.Definition.FindInvalidValue | lib/chump_change.rb:197-200 | the loop returns `FirstInvalidValue`, and the value it returns has unknown fields |
| ChumpChange.Definition.DefinedAssociationsOf | lib/chump_change.rb:204-205 | holds exactly the association names configured under the given values |
| ChumpChange.Definition.Validate | lib/chump_change.rb:182-211 | passes exactly when all seven checks hold; each error is raised exactly when its check is the first to fail, in the source's order, and names exactly the offending names (for a value: the first value, in order, with a field the model does not know) |
| ChumpChange.Definition.ConfirmSpecifiedAttributes | lib/chump_change.rb:182-214 | once confirmed it passes at once; otherwise it returns `Validate` and sets the latch exactly when that passes |
| Guardian.CurrentControlValue | lib/chump_change.rb:265-269 | nil stays nil; any other value becomes the symbol of the same text |
| Guardian.AllowableChangeFields | lib/chump_change.rb:272-276 | the fields allowed for the current value, without duplicates, with the control column removed unless the option is true |
| Guardian.Save | lib/chump_change.rb:300-301 | the configuration a confirmed save check leaves is well formed |
| Guardian.Record.constructor | lib/chump_change.rb:295 | a record starts without the new-record latch |
| Guardian.Record.AllowableChangeFieldsFor | lib/chump_change.rb:249-251 | the association's resolved attributes for the current value, with the write-back |
| Guardian.Record.AllowableOperationsFor | lib/chump_change.rb:253-255 | the association's allowed operations for the current value, with the write-back |
| Guardian.Record.GuardBefore | lib/chump_change.rb:278-289 | a new owner or disabled control passes and changes nothing; a failed confirmation raises the configuration error and changes nothing; otherwise the latch is set and the result is `AlterCheck` |
| Guardian.Record.ReviewModelValueChanges | lib/chump_change.rb:291-302 | sets the new-record latch for a new record when per-instance confirmation is off; skips (passing, changing nothing) a new or latched record or disabled control; otherwise a failed confirmation raises and changes nothing, and a confirmed one gives the field check then the association check |
| Guardian.Record.ConfirmThenCheck | lib/chump_change.rb:298-301 | the confirmation comes first, and its failure stops the save check and changes nothing |
| Guardian.Record.CheckChanges | lib/chump_change.rb:300-301 | the field check comes first and the association check (with its pruning) only runs when the fields pass |
| Properties.SaveFieldsDecision | lib/chump_change.rb:80-89 | the field part of a save passes exactly when each changed field is always allowed, or is not always prevented and is allowed for the current value |
| Properties.PreventedFieldRejectedEverywhere | lib/chump_change.rb:82-83 | a field always prevented and not always allowed is rejected under every control value, nil included, with exactly that field named |
| Properties.UnconfiguredValueFailsOpen | lib/chump_change.rb:150-153 | a value without an entry allows every attribute that is not always prevented |
| Properties.ControlColumnDroppedOnRequest | lib/chump_change.rb:272-276 | without the option the control column is never allowed, and every other field is allowed as with it |
| Properties.UnconfiguredAssociationDefaults | lib/chump_change.rb:155-180 | with nothing stored, an association allows every linked attribute and both `:create` and `:delete` |
| Properties.LockedAssociationAllowsNothing | lib/chump_change.rb:64 | a locked association allows no attribute and no operation |
| Properties.MinusSeesOnlySymbols | lib/chump_change.rb:117 | subtracting from symbolised names sees only the symbols in the subtrahend |
| Properties.CheckSeesOnlySymbols | lib/chump_change.rb:114-119 | a linked record's check depends only on the symbols in `attributes` |
| Properties.CheckValueSeesOnlySymbols | lib/chump_change.rb:102-107 | the same holds for a single record or a collection |
| Properties.CheckRecordsSeesOnlySymbols | lib/chump_change.rb:103-105 | the same holds for every record of a collection |
| Properties.CheckTableSeesOnlySymbols | lib/chump_change.rb:100-109 | two tables with the same symbols per association give the same check |
| Properties.WriteBackKeepsResolution | lib/chump_change.rb:155-161 | the write-back cannot change any later resolution, for an association that always links to the same class |
| Properties.WriteBackTableAlike | lib/chump_change.rb:160 | after the write-back each stored table has the same keys and the same symbols |
| Properties.DeleteEachKeepsAlike | lib/chump_change.rb:96-98 | deleting the untracked associations from two alike tables leaves two alike tables |
| Properties.WriteBackKeepsAssociationCheck | lib/chump_change.rb:91-119 | the write-back cannot change a later save-time association check, because its defaults are strings and the check compares symbols |
| Properties.PruningUnlocksUntracked | lib/chump_change.rb:96-98 | after a save check, an untracked association resolves to the permissive defaults for the checked value, whatever was declared for it |
| Properties.BuildWidget | lib/chump_change.rb:14-77 | `Definition.new` with `control_by: :state`, `always_prevent_change :name` and two `allow_change_for` calls build the worked widget configuration |
| Properties.WidgetInitiatedFields | lib/chump_change.rb:272-276 | in the worked widget configuration, the initiated state allows exactly `one`, `two`, `three` and the state column |
| Properties.WidgetInitiatedRejectsFour | lib/chump_change.rb:80-89 | changing `four` while initiated is rejected, naming `four` only |
| Properties.WidgetCompletionPasses | lib/chump_change.rb:80-89 | moving to completed while changing `four` and `five` passes |

## Left out

- ActiveRecord glue is not modelled: `self.included`, the `before_save` registration, the `has_many` override that appends the guard hooks, `attribute_control` with its `instance_eval` of the rule block, and the `@@definition` registry by class name (lib/chump_change.rb:224-263). The model calls the definition's methods directly.
- Method synthesis with `define_method` is reduced to one method per family. `Record.AllowableChangeFieldsFor` and `Record.AllowableOperationsFor` take the association as a parameter, and `Record.GuardBefore` takes the action.
- What the ORM supplies is given as plain inputs: attribute names, reflections (with each linked class's attribute names), `changed`, `new_record?`, reading an association, and `respond_to?`. `constantize` and the exceptions the ORM itself may raise are not modelled.
- Rails inflection (`underscore`, `pluralize`, the last segment of the class name) is left uninterpreted, as fields of `Inflector`. Only the order of the lookup is modelled.
- `Thread.current` is not modelled: the toggle is one flag per `ControlStatus` object, and per-thread isolation is out of scope.
- Error message text and `class_name` are not modelled. A failure carries its cause and the offending names.
- A control value of `false` is not modelled: a control value is a name or nil.
- `flatten` of nested argument arrays in the builder methods is not modelled: the fields and values arrive as flat lists.
- An explicit `nil` stored under `attributes`, `allow_create` or `allow_delete` is treated like an absent key. In the source `merge!` keeps such a nil, so `fields_allowed_for_association_for_value` would return nil.
- Aliasing is not modelled. `allow_change_for` stores the same `options[:associations]` hash (and `options[:attributes]` array) under every value it registers, and that is also the caller's object. A later `merge!` write-back or untracked deletion through one value would show under the others and in the caller's hash. The model gives each value its own copy.
- ChumpChange.Definition.ConfigForAssociation: requires the association to exist. The source raises `NoMethodError` on nil at lib/chump_change.rb:159 otherwise.
- ChumpChange.Definition.FieldsAllowedForAssociationForValue: requires the association to exist, for the same reason.
- ChumpChange.Definition.OperationsAllowedForAssociationForValue: requires the association to exist, for the same reason.
- Guardian.Record.AllowableChangeFieldsFor: requires the association to exist. The source only defines these methods for existing associations.
- Guardian.Record.AllowableOperationsFor: requires the association to exist, for the same reason.
- ChumpChange.Definition.CanModifyFields: the offending fields are stated by membership only, not in the order Ruby lists them.
- ChumpChange.Definition.Validate: the offending names are stated by membership only, not in the order Ruby lists them.
- ChumpChange.CheckForDisallowedChanges: the offending fields are stated by membership only, not in order.
- ChumpChange.Definition.FieldsAllowedForValue: stated by membership and absence of duplicates; the order `uniq` leaves is not stated.
- Guardian.AllowableChangeFields: stated by membership and absence of duplicates, not order.
- ChumpChange.Definition.AlterConfig: only well-formedness is stated in its contract. What it stores is the `WriteBack` of the matched association; `WriteBackKeepsResolution` shows it cannot be observed.
- Guardian.Save: only well-formedness of the configuration is stated in its contract. The outcome it defines is characterised by `Properties.SaveFieldsDecision` and by the contracts of `CanModifyFields` and `AssociationCheck`.
- The `confirmEverySavePerInstance?` reader is a plain field read, and `control_by` (`Definition.ControlBy`) only converts the control column to a symbol; neither has a contract of its own.
- lib/attr_control.rb is not part of this model. It is an earlier variant that cannot build a definition.

=== FILE: chump_change.dfy ===
/**
 * The attribute-change policy engine: a `Definition` stores, per governed
 * model class, which fields and which association operations may change
 * under each value of a control attribute, validates those rules against the
 * model's schema once, and decides whether a pending change passes.
 */
module ChumpChange {
  import opened Wrappers
  import opened RubyArray
  import opened RubyHash

  /** A Ruby symbol (`:name`) or string (`"name"`); the two never compare equal. */
  datatype Name = Sym(text: string) | Str(text: string)

  /** `to_sym` */
  function ToSym(n: Name): Name {
    Sym(n.text)
  }

  function ToSyms(ns: seq<Name>): seq<Name> {
    seq(|ns|, i requires 0 <= i < |ns| => ToSym(ns[i]))
  }

  /** `names.collect { |v| v.to_sym }` for names the ORM gives as strings. */
  function SymsOf(ss: seq<string>): seq<Name> {
    seq(|ss|, i requires 0 <= i < |ss| => Sym(ss[i]))
  }

  /** Names the ORM gives as strings and that are left as strings. */
  function StrsOf(ss: seq<string>): seq<Name> {
    seq(|ss|, i requires 0 <= i < |ss| => Str(ss[i]))
  }

  const CreatedAt: Name := Sym("created_at")
  const Create: Name := Sym("create")
  const Delete: Name := Sym("delete")

  /**
   * What the ORM reports about one association of the model class: its name,
   * the name of the class it links to, and that class's `attribute_names`.
   */
  datatype Reflection = Reflection(name: Name, className: string, linkedAttributeNames: seq<string>)

  function NamesOf(rs: seq<Reflection>): seq<Name> {
    seq(|rs|, i requires 0 <= i < |rs| => rs[i].name)
  }

  /**
   * One association's policy hash `{attributes:, allow_create:, allow_delete:}`;
   * `None` is a key that was not given.
   */
  datatype AssocPolicy = AssocPolicy(attributes: Option<seq<Name>>, allowCreate: Option<bool>, allowDelete: Option<bool>)

  const Unset: AssocPolicy := AssocPolicy(None, None, None)

  /** The policy `prevent_change_for` gives every association. */
  const Locked: AssocPolicy := AssocPolicy(Some([]), Some(false), Some(false))

  /** association name -> policy */
  type AssocTable = Dict<Name, AssocPolicy>

  /** `@associations_config`: control value -> association name -> policy */
  type AssocConfigs = Dict<Name, AssocTable>

  /** The options hash of `allow_change_for`. */
  datatype AllowOptions = AllowOptions(attributes: Option<seq<Name>>, associations: Option<AssocTable>)

  /** `ChumpChange::ConfigurationError`, by cause. */
  datatype ConfigError =
    | MissingControlColumn
    | NoStatesDefined
    | InvalidControlBy(column: Name)
    | InvalidAlwaysPrevent(fields: seq<Name>)
    | InvalidAlwaysAllow(fields: seq<Name>)
    | InvalidAllowForValue(value: Name, fields: seq<Name>)
    | InvalidAssociationNames(fields: seq<Name>)
    | AllowPreventConflict(fields: seq<Name>)

  /** Everything a check can raise. */
  datatype Failure =
    | ConfigurationError(reason: ConfigError)
      // ChumpChange::Error
    | RestrictedFields(fields: seq<Name>)
    | RestrictedAssociationFields(association: Name, fields: seq<Name>)
    | ActionDenied(action: Name, association: Name)
      // RuntimeError
    | UnknownAction(action: Name)
    | AssociationNotFound(className: string)
      // NoMethodError from `nil.to_sym`
    | NilControlValue

  /** A record reached through an association: whether it is new, and its `changed` names. */
  datatype LinkedRecord = LinkedRecord(newRecord: bool, changed: seq<string>)

  /** What reading an association gives: `nil`, one record, or a collection. */
  datatype AssocValue = NoRecord | Single(record: LinkedRecord) | Collection(records: seq<LinkedRecord>)

  /** The ORM's name inflections, left uninterpreted. */
  datatype Inflector = Inflector(underscore: string -> string, pluralize: string -> string, demodulize: string -> string)

  ghost predicate ConfigsValid(c: AssocConfigs) {
    c.Valid() && forall v :: v in c.entries ==> c.entries[v].Valid()
  }

  // ---------------------------------------------------------------------
  // Association policy resolution (`config_for_association`)
  // ---------------------------------------------------------------------

  /** The policy hash stored for control value `v` and association `assoc`, or `{}`. */
  function StoredPolicy(config: AssocConfigs, v: Option<Name>, assoc: Name): AssocPolicy {
    if v.Some? && v.value in config.entries && ToSym(assoc) in config.entries[v.value].entries
    then config.entries[v.value].entries[ToSym(assoc)]
    else Unset
  }

  /** `merge!` of the defaults into `p`, keeping every key `p` already has. */
  function Merge(p: AssocPolicy, linked: seq<Name>): AssocPolicy {
    AssocPolicy(Some(p.attributes.GetOr(linked)), Some(p.allowCreate.GetOr(true)), Some(p.allowDelete.GetOr(true)))
  }

  /**
   * The policy `config_for_association` returns: every key is present; a key
   * stored for this value and association keeps its value; a missing one
   * defaults to the linked class's attribute names or to `true`.
   */
  function Resolve(config: AssocConfigs, v: Option<Name>, assoc: Name, linked: seq<Name>): (p: AssocPolicy)
    ensures p.attributes.Some? && p.allowCreate.Some? && p.allowDelete.Some?
    ensures StoredPolicy(config, v, assoc).attributes.Some? ==> p.attributes == StoredPolicy(config, v, assoc).attributes
    ensures StoredPolicy(config, v, assoc).attributes.None? ==> p.attributes == Some(linked)
    ensures StoredPolicy(config, v, assoc).allowCreate.Some? ==> p.allowCreate == StoredPolicy(config, v, assoc).allowCreate
    ensures StoredPolicy(config, v, assoc).allowCreate.None? ==> p.allowCreate == Some(true)
    ensures StoredPolicy(config, v, assoc).allowDelete.Some? ==> p.allowDelete == StoredPolicy(config, v, assoc).allowDelete
    ensures StoredPolicy(config, v, assoc).allowDelete.None? ==> p.allowDelete == Some(true)
  {
    Merge(StoredPolicy(config, v, assoc), linked)
  }

  /**
   * The configuration after `config_for_association`: `merge!` writes the
   * merged hash back into the stored one when there is a stored one.
   */
  function WriteBack(config: AssocConfigs, v: Option<Name>, assoc: Name, linked: seq<Name>): (c: AssocConfigs)
    requires ConfigsValid(config)
    ensures ConfigsValid(c)
    ensures c.keys == config.keys
    ensures forall x :: x in config.entries ==> x in c.entries && c.entries[x].keys == config.entries[x].keys
  {
    if v.Some? && v.value in config.entries && ToSym(assoc) in config.entries[v.value].entries then
      var table := config.entries[v.value];
      var c := config.Put(v.value, table.Put(ToSym(assoc), Resolve(config, v, assoc, linked)));
      assert forall x :: x in config.entries && x != v.value ==> c.Get(x) == config.Get(x);
      c
    else config
  }

  /** Whether `allow_<action>` lets the action happen: only an explicit `false` denies. */
  predicate Permits(p: AssocPolicy, action: Name)
    requires action == Create || action == Delete
  {
    (if action == Create then p.allowCreate else p.allowDelete) != Some(false)
  }

  /** The actions `operations_allowed_for_association_for_value` reports on, in order. */
  const Actions: seq<Name> := [Create, Delete]

  /** The permitted actions among the first `n` of `Actions`. */
  function AllowedAmong(n: nat, p: AssocPolicy): seq<Name>
    requires n <= |Actions|
  {
    if n == 0 then []
    else AllowedAmong(n - 1, p) + (if Permits(p, Actions[n - 1]) then [Actions[n - 1]] else [])
  }

  /**
   * `operations_allowed_for_association_for_value` on a resolved policy:
   * `:create` then `:delete`, each kept exactly when its flag permits it.
   */
  function AllowedOperations(p: AssocPolicy): (r: seq<Name>)
    ensures forall a :: a in r <==> (a == Create || a == Delete) && Permits(p, a)
    ensures r == [Create, Delete] || r == [Create] || r == [Delete] || r == []
  {
    assert Actions[0] == Create && Actions[1] == Delete;
    var first := if Permits(p, Create) then [Create] else [];
    assert AllowedAmong(1, p) == first;
    var r := AllowedAmong(2, p);
    assert r == first + if Permits(p, Delete) then [Delete] else [];
    r
  }

  // ---------------------------------------------------------------------
  // Save-time association check (`can_modify_association_attributes?`)
  // ---------------------------------------------------------------------

  /**
   * `check_for_disallowed_changes`: a missing or new record passes; an
   * existing one passes when every changed field is among the policy's
   * `attributes`, which count as empty when not given.
   */
  function CheckForDisallowedChanges(obj: Option<LinkedRecord>, policy: AssocPolicy, assoc: Name): (r: Outcome<Failure>)
    ensures r.Pass? <==> obj.None? || obj.value.newRecord || forall f :: f in SymsOf(obj.value.changed) ==> f in policy.attributes.GetOr([])
    ensures r.Fail? ==> obj.Some? && r.error.RestrictedAssociationFields? && r.error.association == assoc
    ensures r.Fail? ==> forall f :: f in r.error.fields <==> f in SymsOf(obj.value.changed) && f !in policy.attributes.GetOr([])
  {
    if obj.None? || obj.value.newRecord then Pass
    else
      var prevented := Minus(SymsOf(obj.value.changed), policy.attributes.GetOr([]));
      if prevented == [] then Pass else Fail(RestrictedAssociationFields(assoc, prevented))
  }

  /** Every record of a collection in order; the first failure is raised. */
  function CheckRecords(rs: seq<LinkedRecord>, policy: AssocPolicy, assoc: Name): (r: Outcome<Failure>)
    ensures r.Pass? <==> forall i :: 0 <= i < |rs| ==> CheckForDisallowedChanges(Some(rs[i]), policy, assoc).Pass?
    ensures r.Fail? ==> exists i :: (0 <= i < |rs| && r == CheckForDisallowedChanges(Some(rs[i]), policy, assoc)
      && forall j :: 0 <= j < i ==> CheckForDisallowedChanges(Some(rs[j]), policy, assoc).Pass?)
  {
    FirstFailure(rs, (rec: LinkedRecord) => CheckForDisallowedChanges(Some(rec), policy, assoc))
  }

  /** One association: a collection record by record, otherwise the single value. */
  function CheckValue(value: AssocValue, policy: AssocPolicy, assoc: Name): Outcome<Failure> {
    match value
    case NoRecord => CheckForDisallowedChanges(None, policy, assoc)
    case Single(rec) => CheckForDisallowedChanges(Some(rec), policy, assoc)
    case Collection(rs) => CheckRecords(rs, policy, assoc)
  }

  /** The associations of `keys` in order; the first failure is raised. */
  function CheckTable(keys: seq<Name>, table: AssocTable, linked: Name -> AssocValue): (r: Outcome<Failure>)
    requires forall k :: k in keys ==> k in table.entries
    ensures r.Pass? <==> forall i :: 0 <= i < |keys| ==> CheckValue(linked(keys[i]), table.entries[keys[i]], keys[i]).Pass?
    ensures r.Fail? ==> exists i :: (0 <= i < |keys| && r == CheckValue(linked(keys[i]), table.entries[keys[i]], keys[i])
      && forall j :: 0 <= j < i ==> CheckValue(linked(keys[j]), table.entries[keys[j]], keys[j]).Pass?)
  {
    FirstFailure(keys, (k: Name) => if k in table.entries then CheckValue(linked(k), table.entries[k], k) else Pass)
  }

  /** The check of a table reads only the entries of the keys it visits. */
  lemma {:induction false} SameChecks(keys: seq<Name>, t1: AssocTable, t2: AssocTable, linked: Name -> AssocValue)
    requires forall k :: k in keys ==> k in t1.entries && k in t2.entries && t1.entries[k] == t2.entries[k]
    ensures CheckTable(keys, t1, linked) == CheckTable(keys, t2, linked)
  {
    if keys != [] {
      SameChecks(keys[1..], t1, t2, linked);
    }
  }

  lemma PutEachKeepsConfigsValid(c: AssocConfigs, vs: seq<Name>, t: AssocTable)
    requires ConfigsValid(c) && t.Valid()
    ensures ConfigsValid(c.PutEach(vs, t))
  {
    forall x | x in c.PutEach(vs, t).entries
      ensures c.PutEach(vs, t).entries[x].Valid()
    {
      assert c.PutEach(vs, t).Get(x) == if x in vs then Some(t) else c.Get(x);
    }
  }

  /** The `each_pair` loop of `can_modify_association_attributes?` over one table. */
  method CheckTableInOrder(table: AssocTable, linked: Name -> AssocValue) returns (r: Outcome<Failure>)
    requires table.Valid()
    ensures r == CheckTable(table.keys, table, linked)
  {
    ghost var check := (k: Name) => if k in table.entries then CheckValue(linked(k), table.entries[k], k) else Pass;
    assert CheckTable(table.keys, table, linked) == FirstFailure(table.keys, check);
    var i := 0;
    while i < |table.keys|
      invariant 0 <= i <= |table.keys|
      invariant FirstFailure(table.keys, check) == FirstFailure(table.keys[i..], check)
    {
      var key := table.keys[i];
      var policy := table.entries[key];
      var c;
      match linked(key) {
        case NoRecord =>
          c := CheckForDisallowedChanges(None, policy, key);
        case Single(rec) =>
          c := CheckForDisallowedChanges(Some(rec), policy, key);
        case Collection(rs) =>
          c := CheckRecordsInOrder(rs, policy, key);
      }
      assert c == check(key);
      FirstFailureFrom(table.keys, check, i);
      if c.Fail? {
        return c;
      }
      i := i + 1;
    }
    return Pass;
  }

  /** The `each` loop over a collection association's records. */
  method CheckRecordsInOrder(rs: seq<LinkedRecord>, policy: AssocPolicy, assoc: Name) returns (r: Outcome<Failure>)
    ensures r == CheckRecords(rs, policy, assoc)
  {
    ghost var check := (rec: LinkedRecord) => CheckForDisallowedChanges(Some(rec), policy, assoc);
    assert CheckRecords(rs, policy, assoc) == FirstFailure(rs, check);
    var j := 0;
    while j < |rs|
      invariant 0 <= j <= |rs|
      invariant FirstFailure(rs, check) == FirstFailure(rs[j..], check)
    {
      r := CheckForDisallowedChanges(Some(rs[j]), policy, assoc);
      FirstFailureFrom(rs, check, j);
      if r.Fail? {
        return;
      }
      j := j + 1;
    }
    return Pass;
  }

  /** The per-value table stored for `v`, or a fresh `{}`. */
  function TableFor(config: AssocConfigs, v: Name): (t: AssocTable)
    requires ConfigsValid(config)
    ensures t.Valid()
  {
    if v in config.entries then config.entries[v] else EmptyDict()
  }

  /** The configuration after the untracked associations are deleted from the stored table for `v`. */
  function Prune(config: AssocConfigs, v: Name, untracked: seq<Name>): (c: AssocConfigs)
    requires ConfigsValid(config)
    ensures ConfigsValid(c)
    ensures c.keys == config.keys
    ensures forall x :: x != v ==> c.Get(x) == config.Get(x)
    ensures v in config.entries ==> c.entries[v] == config.entries[v].DeleteEach(untracked)
  {
    if v in config.entries then config.Put(v, config.entries[v].DeleteEach(untracked)) else config
  }

  /**
   * The outcome of `can_modify_association_attributes?` for control value
   * `cv`: only the associations configured for the value and not untracked
   * are visited, and each must pass `check_for_disallowed_changes`.
   */
  function AssociationCheck(config: AssocConfigs, cv: Option<Name>, untracked: seq<Name>, linked: Name -> AssocValue): (r: Outcome<Failure>)
    requires ConfigsValid(config)
    ensures cv.None? ==> r == Fail(NilControlValue)
    ensures cv.Some? ==> (r.Pass? <==> forall a :: a in TableFor(config, ToSym(cv.value)).entries && a !in untracked
                                          ==> CheckValue(linked(a), TableFor(config, ToSym(cv.value)).entries[a], a).Pass?)
    ensures cv.Some? ==> r == CheckTable(Minus(TableFor(config, ToSym(cv.value)).keys, untracked),
                                         TableFor(config, ToSym(cv.value)), linked)
  {
    if cv.None? then Fail(NilControlValue)
    else
      var t := TableFor(config, ToSym(cv.value)).DeleteEach(untracked);
      DeleteEachEntries(TableFor(config, ToSym(cv.value)), untracked);
      SameChecks(t.keys, t, TableFor(config, ToSym(cv.value)), linked);
      CheckTable(t.keys, t, linked)
  }

  /** The configuration left by `can_modify_association_attributes?`. */
  function AssociationCheckConfig(config: AssocConfigs, cv: Option<Name>, untracked: seq<Name>): (c: AssocConfigs)
    requires ConfigsValid(config)
    ensures ConfigsValid(c)
  {
    if cv.None? then config else Prune(config, ToSym(cv.value), untracked)
  }

  // ---------------------------------------------------------------------
  // Reflection lookups
  // ---------------------------------------------------------------------

  /** The first association whose name reads `name`. */
  function FirstNamed(rs: seq<Reflection>, name: string): (r: Option<Reflection>)
    ensures r.Some? ==> r.value in rs && r.value.name.text == name
    ensures r.None? <==> forall x :: x in rs ==> x.name.text != name
  {
    if rs == [] then None
    else if rs[0].name.text == name then Some(rs[0])
    else FirstNamed(rs[1..], name)
  }

  /** The first association linking to class `className` (`detect`). */
  function FirstOfClass(rs: seq<Reflection>, className: string): (r: Option<Reflection>)
    ensures r.Some? ==> r.value in rs && r.value.className == className
    ensures r.None? <==> forall x :: x in rs ==> x.className != className
    ensures r.Some? ==> exists i :: (0 <= i < |rs| && rs[i] == r.value
      && forall j :: 0 <= j < i ==> rs[j].className != className)
  {
    if rs == [] then None
    else if rs[0].className == className then Some(rs[0])
    else
      var r := FirstOfClass(rs[1..], className);
      assert r.Some? ==> exists i :: (0 <= i < |rs| && rs[i] == r.value
        && forall j :: 0 <= j < i ==> rs[j].className != className) by {
        if r.Some? {
          var k :| 0 <= k < |rs| - 1 && rs[1..][k] == r.value && forall j :: 0 <= j < k ==> rs[1..][j].className != className;
          assert rs[k + 1] == r.value;
          forall j | 0 <= j < k + 1 ensures rs[j].className != className {
            if j > 0 { assert rs[j] == rs[1..][j - 1]; }
          }
        }
      }
      r
  }

  /** The rules of one governed model class (`AttributeGuardian::Definition`). */
  class Definition {
    const attributeNames: seq<Name>
    const reflections: seq<Reflection>
    const associationNames: seq<Name>
    const controlColumn: Name
    var confirmEverySavePerInstance: bool
    var alwaysPrevent: seq<Name>
    var alwaysAllow: seq<Name>
    var untrackedAssociations: seq<Name>
    var stateHash: Dict<Name, seq<Name>>
    var associationsConfig: AssocConfigs
    var configurationConfirmed: bool

    ghost predicate Valid()
      reads this`stateHash, this`associationsConfig
    {
      stateHash.Valid() && ConfigsValid(associationsConfig) && associationNames == NamesOf(reflections)
    }

    /** `initialize` once `options[:control_by]` is known to be present. */
    constructor (modelAttributeNames: seq<string>, modelReflections: seq<Reflection>, controlBy: Name)
      ensures Valid()
      ensures attributeNames == SymsOf(modelAttributeNames) && reflections == modelReflections
      ensures controlColumn == controlBy
      ensures alwaysPrevent == [CreatedAt]
      ensures alwaysAllow == if controlBy in SymsOf(modelAttributeNames) then [controlBy] else []
      ensures untrackedAssociations == [] && stateHash == EmptyDict() && associationsConfig == EmptyDict()
      ensures confirmEverySavePerInstance && !configurationConfirmed
    {
      attributeNames := SymsOf(modelAttributeNames);
      reflections := modelReflections;
      associationNames := NamesOf(modelReflections);
      confirmEverySavePerInstance := true;
      controlColumn := controlBy;
      alwaysPrevent := [CreatedAt];
      alwaysAllow := if controlBy in SymsOf(modelAttributeNames) then [controlBy] else [];
      untrackedAssociations := [];
      stateHash := EmptyDict();
      associationsConfig := EmptyDict();
      configurationConfirmed := false;
    }

    /**
     * `Definition.new(base, options)`: raises without `:control_by`; otherwise
     * `created_at` is always prevented and the control column is always
     * allowed exactly when it is one of the model's attributes.
     */
    static method New(modelAttributeNames: seq<string>, modelReflections: seq<Reflection>, controlBy: Option<Name>)
      returns (r: Result<Definition, ConfigError>)
      ensures r.Failure? <==> controlBy.None?
      ensures r.Failure? ==> r.error == MissingControlColumn
      ensures r.Success? ==> fresh(r.value) && r.value.Valid() && !r.value.configurationConfirmed
      ensures r.Success? ==> r.value.alwaysPrevent == [CreatedAt] && r.value.controlColumn == controlBy.value
      ensures r.Success? ==> (forall f :: f in r.value.alwaysAllow <==> f == controlBy.value && f in r.value.attributeNames)
      ensures r.Success? ==> r.value.alwaysAllow == if controlBy.value in r.value.attributeNames then [controlBy.value] else []
      ensures r.Success? ==> r.value.attributeNames == SymsOf(modelAttributeNames) && r.value.reflections == modelReflections
      ensures r.Success? ==> r.value.stateHash.entries == map[] && r.value.associationsConfig.entries == map[]
      ensures r.Success? ==> r.value.untrackedAssociations == [] && r.value.confirmEverySavePerInstance
    {
      if controlBy.None? {
        return Failure(MissingControlColumn);
      }
      var d := new Definition(modelAttributeNames, modelReflections, controlBy.value);
      return Success(d);
    }

    /** `control_by` */
    function ControlBy(): Name {
      ToSym(controlColumn)
    }

    /** `confirm_every_save_per_instance(val)` */
    method SetConfirmEverySavePerInstance(val: bool)
      modifies this`confirmEverySavePerInstance
      ensures confirmEverySavePerInstance == val
    {
      confirmEverySavePerInstance := val;
    }

    // ----- rule builder -----

    /** `always_prevent_change(*fields)` */
    method AlwaysPreventChange(fields: seq<Name>)
      modifies this`alwaysPrevent
      ensures alwaysPrevent == old(alwaysPrevent) + fields
    {
      alwaysPrevent := alwaysPrevent + fields;
    }

    /** `always_allow_change(attributes: ..., associations: ...)`; either key may be absent. */
    method AlwaysAllowChange(attributes: Option<seq<Name>>, associations: Option<seq<Name>>)
      modifies this`alwaysAllow, this`untrackedAssociations
      ensures alwaysAllow == old(alwaysAllow) + attributes.GetOr([])
      ensures untrackedAssociations == old(untrackedAssociations) + associations.GetOr([])
    {
      if attributes.Some? {
        alwaysAllow := alwaysAllow + attributes.value;
      }
      if associations.Some? {
        untrackedAssociations := untrackedAssociations + associations.value;
      }
    }

    /** The association table `prevent_change_for` stores: every association locked. */
    function LockedTable(): (t: AssocTable)
      ensures t.Valid()
    {
      EmptyDict().PutEach(NamesOf(reflections), Locked)
    }

    /** A locked table holds exactly the model's associations, each with nothing allowed. */
    lemma LockedTableLocksEvery(a: Name)
      ensures LockedTable().Get(a) == if a in NamesOf(reflections) then Some(Locked) else None
    {
    }

    /**
     * `prevent_change_for(*values)`: each value (as a symbol) is registered,
     * replacing any earlier entry, with no allowed field and every association
     * locked.
     */
    method PreventChangeFor(controlValues: seq<Name>)
      requires Valid()
      modifies this`stateHash, this`associationsConfig
      ensures Valid()
      ensures stateHash == old(stateHash).PutEach(ToSyms(controlValues), [])
      ensures associationsConfig == old(associationsConfig).PutEach(ToSyms(controlValues), LockedTable())
    {
      var syms := ToSyms(controlValues);
      ghost var locked := LockedTable();
      PutEachKeepsConfigsValid(associationsConfig, syms, locked);
      var states := stateHash;
      var configs := associationsConfig;
      var i := 0;
      while i < |syms|
        invariant 0 <= i <= |syms|
        invariant states == old(stateHash).PutEach(syms[..i], [])
        invariant configs == old(associationsConfig).PutEach(syms[..i], locked)
      {
        var cv := syms[i];
        PutEachStep(old(stateHash), syms, [], i);
        PutEachStep(old(associationsConfig), syms, locked, i);
        states := states.Put(cv, []);
        var assocConfig := LockAll();
        configs := configs.Put(cv, assocConfig);
        i := i + 1;
      }
      assert syms[..i] == syms;
      stateHash := states;
      associationsConfig := configs;
    }

    /** The loop of `prevent_change_for` over the reflections: `{assoc => locked}` for each. */
    method LockAll() returns (t: AssocTable)
      ensures t == LockedTable()
    {
      t := EmptyDict();
      var j := 0;
      while j < |reflections|
        invariant 0 <= j <= |reflections|
        invariant t == EmptyDict().PutEach(NamesOf(reflections)[..j], Locked)
      {
        PutEachStep(EmptyDict(), NamesOf(reflections), Locked, j);
        t := t.Put(reflections[j].name, Locked);
        j := j + 1;
      }
      assert NamesOf(reflections)[..j] == NamesOf(reflections);
    }

    /**
     * `allow_change_for(values, options)`: each value (as a symbol) is
     * registered, replacing any earlier entry, with the given attributes
     * (default `[]`) and association table (default `{}`).
     */
    method AllowChangeFor(controlValues: seq<Name>, options: AllowOptions)
      requires Valid()
      requires options.associations.Some? ==> options.associations.value.Valid()
      modifies this`stateHash, this`associationsConfig
      ensures Valid()
      ensures stateHash == old(stateHash).PutEach(ToSyms(controlValues), options.attributes.GetOr([]))
      ensures associationsConfig == old(associationsConfig).PutEach(ToSyms(controlValues), options.associations.GetOr(EmptyDict()))
    {
      var syms := ToSyms(controlValues);
      var attributes := options.attributes.GetOr([]);
      var associations := options.associations.GetOr(EmptyDict());
      PutEachKeepsConfigsValid(associationsConfig, syms, associations);
      var states := stateHash;
      var configs := associationsConfig;
      var i := 0;
      while i < |syms|
        invariant 0 <= i <= |syms|
        invariant states == old(stateHash).PutEach(syms[..i], attributes)
        invariant configs == old(associationsConfig).PutEach(syms[..i], associations)
      {
        var cv := syms[i];
        PutEachStep(old(stateHash), syms, attributes, i);
        PutEachStep(old(associationsConfig), syms, associations, i);
        states := states.Put(cv, attributes);
        configs := configs.Put(cv, associations);
        i := i + 1;
      }
      assert syms[..i] == syms;
      stateHash := states;
      associationsConfig := configs;
    }

    // ----- field evaluator -----

    /** Whether control value `v` has an entry of its own. */
    predicate Configured(v: Option<Name>)
      reads this`stateHash
    {
      v.Some? && v.value in stateHash.entries
    }

    /** `@state_hash[v] || @attribute_names` */
    function BaseFields(v: Option<Name>): seq<Name>
      reads this`stateHash
    {
      if Configured(v) then stateHash.entries[v.value] else attributeNames
    }

    /**
     * `fields_allowed_for_value(v)`: the always-allowed fields and the value's
     * own fields (every attribute when the value is not configured), minus
     * every always-prevented field, without duplicates.
     */
    function FieldsAllowedForValue(v: Option<Name>): (r: seq<Name>)
      reads this`alwaysAllow, this`alwaysPrevent, this`stateHash
      ensures NoDups(r)
      ensures forall f :: f in r <==> f !in alwaysPrevent && (f in alwaysAllow || f in BaseFields(v))
    {
      Uniq(Minus(alwaysAllow + BaseFields(v), alwaysPrevent))
    }

    /**
     * `can_modify_fields?(model, allowed)`: first rejects the changed fields
     * that are always prevented and not always allowed, then those outside
     * `allowed` and the always-allowed fields; passes otherwise.
     */
    function CanModifyFields(changed: seq<string>, allowedChanges: seq<Name>): (r: Outcome<Failure>)
      reads this`alwaysAllow, this`alwaysPrevent
      ensures r.Pass? <==> forall f :: f in SymsOf(changed) ==> f in alwaysAllow || (f !in alwaysPrevent && f in allowedChanges)
      ensures r.Fail? ==> r.error.RestrictedFields? && r.error.fields != []
      ensures r.Fail? && (exists f :: f in SymsOf(changed) && f in alwaysPrevent && f !in alwaysAllow) ==>
        forall f :: f in r.error.fields <==> f in SymsOf(changed) && f in alwaysPrevent && f !in alwaysAllow
      ensures r.Fail? && !(exists f :: f in SymsOf(changed) && f in alwaysPrevent && f !in alwaysAllow) ==>
        forall f :: f in r.error.fields <==> f in SymsOf(changed) && f !in allowedChanges && f !in alwaysAllow
    {
      var changedSyms := SymsOf(changed);
      var prevented := Intersect(alwaysPrevent, Minus(changedSyms, alwaysAllow));
      if prevented != [] then Fail(RestrictedFields(prevented))
      else
        var disallowed := Minus(changedSyms, allowedChanges + alwaysAllow);
        if disallowed != [] then Fail(RestrictedFields(disallowed)) else Pass
    }

    // ----- association evaluator -----

    /** `reflect_on_association(name)` */
    function ReflectOnAssociation(name: string): (r: Option<Reflection>)
      ensures r.Some? ==> r.value in reflections && r.value.name.text == name
      ensures r.None? <==> forall x :: x in reflections ==> x.name.text != name
    {
      FirstNamed(reflections, name)
    }

    /** The linked class's `attribute_names` (strings) for association `assoc`. */
    function LinkedAttributes(assoc: Name): seq<Name>
      requires ReflectOnAssociation(assoc.text).Some?
    {
      StrsOf(ReflectOnAssociation(assoc.text).value.linkedAttributeNames)
    }

    /**
     * `find_matching_association_definition`: the association named like the
     * linked class (singular, then plural), else the first whose class name is
     * the linked class's own name, else an error.
     */
    function FindMatchingAssociationDefinition(className: string, inf: Inflector): (r: Result<Reflection, Failure>)
      ensures r.Success? ==> r.value in reflections
      ensures r.Failure? ==> r.error == AssociationNotFound(className)
      ensures r.Success? <==> exists x :: (x in reflections &&
        (x.name.text == inf.underscore(className) || x.name.text == inf.pluralize(inf.underscore(className))
         || x.className == inf.demodulize(className)))
      ensures (exists x :: x in reflections && x.name.text == inf.underscore(className)) ==>
        r.Success? && r.value.name.text == inf.underscore(className)
      ensures ((forall x :: x in reflections ==> x.name.text != inf.underscore(className)) &&
               (exists x :: x in reflections && x.name.text == inf.pluralize(inf.underscore(className)))) ==>
        r.Success? && r.value.name.text == inf.pluralize(inf.underscore(className))
      ensures ((forall x :: x in reflections ==>
                  (x.name.text != inf.underscore(className) && x.name.text != inf.pluralize(inf.underscore(className))))
               && r.Success?) ==>
        exists i :: (0 <= i < |reflections| && reflections[i] == r.value && r.value.className == inf.demodulize(className)
          && forall j :: 0 <= j < i ==> reflections[j].className != inf.demodulize(className))
    {
      var singular := inf.underscore(className);
      var bySingular := ReflectOnAssociation(singular);
      if bySingular.Some? then Success(bySingular.value)
      else
        var byPlural := ReflectOnAssociation(inf.pluralize(singular));
        if byPlural.Some? then Success(byPlural.value)
        else
          var byClass := FirstOfClass(reflections, inf.demodulize(className));
          if byClass.Some? then Success(byClass.value) else Failure(AssociationNotFound(className))
    }

    /**
     * `config_for_association(v, assoc)`: the resolved policy; `merge!`
     * writes the defaults into the stored hash when one is stored.
     */
    method ConfigForAssociation(v: Option<Name>, assoc: Name) returns (cfg: AssocPolicy)
      requires Valid() && ReflectOnAssociation(assoc.text).Some?
      modifies this`associationsConfig
      ensures Valid()
      ensures cfg == Resolve(old(associationsConfig), v, assoc, LinkedAttributes(assoc))
      ensures associationsConfig == WriteBack(old(associationsConfig), v, assoc, LinkedAttributes(assoc))
    {
      var linked := LinkedAttributes(assoc);
      var table := if v.Some? && v.value in associationsConfig.entries then associationsConfig.entries[v.value] else EmptyDict();
      var stored := if ToSym(assoc) in table.entries then table.entries[ToSym(assoc)] else Unset;
      cfg := Merge(stored, linked);
      if v.Some? && v.value in associationsConfig.entries && ToSym(assoc) in table.entries {
        associationsConfig := associationsConfig.Put(v.value, table.Put(ToSym(assoc), cfg));
      }
    }

    /** `fields_allowed_for_association_for_value(v, assoc)` */
    method FieldsAllowedForAssociationForValue(v: Option<Name>, assoc: Name) returns (attrs: seq<Name>)
      requires Valid() && ReflectOnAssociation(assoc.text).Some?
      modifies this`associationsConfig
      ensures Valid()
      ensures attrs == Resolve(old(associationsConfig), v, assoc, LinkedAttributes(assoc)).attributes.value
      ensures associationsConfig == WriteBack(old(associationsConfig), v, assoc, LinkedAttributes(assoc))
    {
      var cfg := ConfigForAssociation(v, assoc);
      attrs := cfg.attributes.value;
    }

    /** `operations_allowed_for_association_for_value(v, assoc)` */
    method OperationsAllowedForAssociationForValue(v: Option<Name>, assoc: Name) returns (allowed: seq<Name>)
      requires Valid() && ReflectOnAssociation(assoc.text).Some?
      modifies this`associationsConfig
      ensures Valid()
      ensures allowed == AllowedOperations(Resolve(old(associationsConfig), v, assoc, LinkedAttributes(assoc)))
      ensures associationsConfig == WriteBack(old(associationsConfig), v, assoc, LinkedAttributes(assoc))
    {
      var cfg := ConfigForAssociation(v, assoc);
      allowed := [];
      var i := 0;
      while i < |Actions|
        invariant 0 <= i <= |Actions|
        invariant allowed == AllowedAmong(i, cfg)
      {
        var action := Actions[i];
        var canPerform := if action == Create then cfg.allowCreate else cfg.allowDelete;
        if canPerform != Some(false) {
          allowed := allowed + [action];
        }
        i := i + 1;
      }
    }

    /**
     * `can_modify_association_attributes?`: deletes the untracked associations
     * from the table stored for the current value, then checks every record of
     * every remaining association in order.
     */
    method CanModifyAssociationAttributes(cv: Option<Name>, linked: Name -> AssocValue) returns (r: Outcome<Failure>)
      requires Valid()
      modifies this`associationsConfig
      ensures Valid()
      ensures r == AssociationCheck(old(associationsConfig), cv, untrackedAssociations, linked)
      ensures associationsConfig == AssociationCheckConfig(old(associationsConfig), cv, untrackedAssociations)
    {
      if cv.None? {
        return Fail(NilControlValue);
      }
      var v := ToSym(cv.value);
      var table := WithoutUntracked(TableFor(associationsConfig, v));
      if v in associationsConfig.entries {
        associationsConfig := associationsConfig.Put(v, table);
      }
      r := CheckTableInOrder(table, linked);
    }

    /** The loop of `can_modify_association_attributes?` deleting each untracked association. */
    method WithoutUntracked(table: AssocTable) returns (t: AssocTable)
      requires table.Valid()
      ensures t == table.DeleteEach(untrackedAssociations)
    {
      var untracked := untrackedAssociations;
      t := table;
      var k := 0;
      while k < |untracked|
        invariant 0 <= k <= |untracked|
        invariant t == table.DeleteEach(untracked[..k])
      {
        DeleteEachStep(table, untracked, k);
        t := t.Delete(untracked[k]);
        k := k + 1;
      }
      assert untracked[..k] == untracked;
    }

    /**
     * The outcome of `can_alter_association_collection?(action, model, record)`
     * where the model's control attribute reads `raw` and the record's class
     * is `className`.
     */
    function AlterCheck(action: Name, raw: Option<Name>, className: string, inf: Inflector): (r: Outcome<Failure>)
      reads this`associationsConfig
      ensures action != Create && action != Delete ==> r == Fail(UnknownAction(action))
      ensures (action == Create || action == Delete) && FindMatchingAssociationDefinition(className, inf).Failure? ==>
        r == Fail(AssociationNotFound(className))
      ensures (action == Create || action == Delete) && FindMatchingAssociationDefinition(className, inf).Success? && raw.None? ==>
        r == Fail(NilControlValue)
      ensures r.Fail? && r.error.ActionDenied? ==> r.error.action == action
      ensures (action == Create || action == Delete) && FindMatchingAssociationDefinition(className, inf).Success? && raw.Some? ==>
        var assoc := FindMatchingAssociationDefinition(className, inf).value.name;
        var stored := StoredPolicy(associationsConfig, Some(ToSym(raw.value)), assoc);
        (r.Pass? <==> (if action == Create then stored.allowCreate else stored.allowDelete) != Some(false)) &&
        (r.Fail? ==> r == Fail(ActionDenied(action, assoc)))
    {
      if action != Create && action != Delete then Fail(UnknownAction(action))
      else
        var found := FindMatchingAssociationDefinition(className, inf);
        if found.Failure? then Fail(found.error)
        else if raw.None? then Fail(NilControlValue)
        else
          var assoc := found.value.name;
          var cfg := Resolve(associationsConfig, Some(ToSym(raw.value)), assoc, LinkedAttributes(assoc));
          if Permits(cfg, action) then Pass else Fail(ActionDenied(action, assoc))
    }

    /** The configuration `can_alter_association_collection?` leaves behind. */
    function AlterConfig(action: Name, raw: Option<Name>, className: string, inf: Inflector): (c: AssocConfigs)
      reads this`stateHash, this`associationsConfig
      requires Valid()
      ensures ConfigsValid(c)
    {
      if action != Create && action != Delete then associationsConfig
      else
        var found := FindMatchingAssociationDefinition(className, inf);
        if found.Failure? || raw.None? then associationsConfig
        else
          var assoc := found.value.name;
          WriteBack(associationsConfig, Some(ToSym(raw.value)), assoc, LinkedAttributes(assoc))
    }

    /** `can_alter_association_collection?(action, model, record)` */
    method CanAlterAssociationCollection(action: Name, raw: Option<Name>, className: string, inf: Inflector)
      returns (r: Outcome<Failure>)
      requires Valid()
      modifies this`associationsConfig
      ensures Valid()
      ensures r == old(AlterCheck(action, raw, className, inf))
      ensures associationsConfig == old(AlterConfig(action, raw, className, inf))
    {
      if action != Create && action != Delete {
        return Fail(UnknownAction(action));
      }
      var found := FindMatchingAssociationDefinition(className, inf);
      if found.Failure? {
        return Fail(found.error);
      }
      var assoc := found.value.name;
      if raw.None? {
        return Fail(NilControlValue);
      }
      var cfg := ConfigForAssociation(Some(ToSym(raw.value)), assoc);
      var canPerform := if action == Create then cfg.allowCreate else cfg.allowDelete;
      if canPerform == Some(false) {
        return Fail(ActionDenied(action, assoc));
      }
      return Pass;
    }

    // ----- validator -----

    /** `@attribute_names + @association_names` */
    function Known(): seq<Name> {
      attributeNames + associationNames
    }

    predicate StatesDefined()
      reads this`associationsConfig
    {
      associationsConfig.entries != map[]
    }

    predicate ControlAttributeExists(responds: set<Name>) {
      ControlBy() in responds
    }

    predicate PreventFieldsKnown()
      reads this`alwaysPrevent
    {
      forall f :: f in alwaysPrevent ==> f in Known()
    }

    predicate AllowFieldsKnown()
      reads this`alwaysAllow
    {
      forall f :: f in alwaysAllow ==> f in Known()
    }

    predicate ValueKnown(k: Name)
      reads this`stateHash
      requires k in stateHash.entries
    {
      forall f :: f in stateHash.entries[k] ==> f in Known()
    }

    predicate ValueFieldsKnown()
      reads this`stateHash
    {
      forall k :: k in stateHash.entries ==> ValueKnown(k)
    }

    predicate AssociationNamesKnown()
      reads this`associationsConfig
    {
      forall v, a :: v in associationsConfig.entries && a in associationsConfig.entries[v].entries ==> a in associationNames
    }

    predicate AllowPreventDisjoint()
      reads this`alwaysAllow, this`alwaysPrevent
    {
      forall f :: f in alwaysAllow ==> f !in alwaysPrevent
    }

    /** The first control value, in registration order, with a field the model does not know. */
    function FirstInvalidValue(keys: seq<Name>): (r: Option<Name>)
      reads this`stateHash
      requires forall k :: k in keys ==> k in stateHash.entries
      ensures r.None? <==> forall k :: k in keys ==> ValueKnown(k)
      ensures r.Some? ==> exists i :: (0 <= i < |keys| && keys[i] == r.value && !ValueKnown(keys[i])
        && forall j :: 0 <= j < i ==> ValueKnown(keys[j]))
    {
      if keys == [] then None
      else if !ValueKnown(keys[0]) then Some(keys[0])
      else
        var r := FirstInvalidValue(keys[1..]);
        assert r.None? ==> forall k :: k in keys ==> ValueKnown(k) by {
          if r.None? {
            forall k | k in keys ensures ValueKnown(k) {
              if k != keys[0] { assert k in keys[1..]; }
            }
          }
        }
        assert r.Some? ==> exists i :: (0 <= i < |keys| && keys[i] == r.value && !ValueKnown(keys[i])
          && forall j :: 0 <= j < i ==> ValueKnown(keys[j])) by {
          if r.Some? {
            var k :| 0 <= k < |keys| - 1 && keys[1..][k] == r.value && !ValueKnown(keys[1..][k])
              && forall j :: 0 <= j < k ==> ValueKnown(keys[1..][j]);
            assert keys[k + 1] == r.value;
            forall j | 0 <= j < k + 1 ensures ValueKnown(keys[j]) {
              if j > 0 { assert keys[j] == keys[1..][j - 1]; }
            }
          }
        }
        r
    }

    /** The `each_pair` loop of `confirm_specified_attributes` over the per-value field lists. */
    method FindInvalidValue() returns (r: Option<Name>)
      requires Valid()
      ensures r == FirstInvalidValue(stateHash.keys)
      ensures r.Some? ==> r.value in stateHash.entries && Minus(stateHash.entries[r.value], Known()) != []
    {
      var known := attributeNames + associationNames;
      var i := 0;
      while i < |stateHash.keys|
        invariant 0 <= i <= |stateHash.keys|
        invariant FirstInvalidValue(stateHash.keys) == FirstInvalidValue(stateHash.keys[i..])
      {
        var k := stateHash.keys[i];
        if Minus(stateHash.entries[k], known) != [] {
          return Some(k);
        }
        assert stateHash.keys[i..][1..] == stateHash.keys[i + 1..];
        i := i + 1;
      }
      return None;
    }

    /** The association names of every table, in order (`inject`, `flatten!`). */
    function DefinedAssociationsOf(keys: seq<Name>): (r: seq<Name>)
      reads this`associationsConfig
      requires forall k :: k in keys ==> k in associationsConfig.entries
      ensures forall v, a :: v in keys && a in associationsConfig.entries[v].keys ==> a in r
      ensures forall a :: a in r ==> exists v :: v in keys && a in associationsConfig.entries[v].keys
    {
      if keys == [] then []
      else DefinedAssociationsOf(keys[..|keys| - 1]) + associationsConfig.entries[keys[|keys| - 1]].keys
    }

    /**
     * The outcome of `confirm_specified_attributes` before the latch is set:
     * the checks run in a fixed order and the first that fails is raised,
     * naming what it found.
     */
    function Validate(responds: set<Name>): (r: Outcome<ConfigError>)
      reads this`alwaysPrevent, this`alwaysAllow, this`stateHash, this`associationsConfig
      requires Valid()
      ensures r.Pass? <==> StatesDefined() && ControlAttributeExists(responds) && PreventFieldsKnown() && AllowFieldsKnown()
                           && ValueFieldsKnown() && AssociationNamesKnown() && AllowPreventDisjoint()
      ensures r == Fail(NoStatesDefined) <==> !StatesDefined()
      ensures r.Fail? && r.error.InvalidControlBy? <==> StatesDefined() && !ControlAttributeExists(responds)
      ensures r.Fail? && r.error.InvalidAlwaysPrevent? <==>
        StatesDefined() && ControlAttributeExists(responds) && !PreventFieldsKnown()
      ensures r.Fail? && r.error.InvalidAlwaysAllow? <==>
        StatesDefined() && ControlAttributeExists(responds) && PreventFieldsKnown() && !AllowFieldsKnown()
      ensures r.Fail? && r.error.InvalidAllowForValue? <==>
        StatesDefined() && ControlAttributeExists(responds) && PreventFieldsKnown() && AllowFieldsKnown() && !ValueFieldsKnown()
      ensures r.Fail? && r.error.InvalidAssociationNames? <==>
        StatesDefined() && ControlAttributeExists(responds) && PreventFieldsKnown() && AllowFieldsKnown() && ValueFieldsKnown()
        && !AssociationNamesKnown()
      ensures r.Fail? && r.error.AllowPreventConflict? <==>
        StatesDefined() && ControlAttributeExists(responds) && PreventFieldsKnown() && AllowFieldsKnown() && ValueFieldsKnown()
        && AssociationNamesKnown() && !AllowPreventDisjoint()
      ensures r.Fail? && r.error.InvalidControlBy? ==> r.error.column == ControlBy()
      ensures r.Fail? && r.error.InvalidAlwaysPrevent? ==>
        forall f :: f in r.error.fields <==> f in alwaysPrevent && f !in Known()
      ensures r.Fail? && r.error.InvalidAlwaysAllow? ==>
        forall f :: f in r.error.fields <==> f in alwaysAllow && f !in Known()
      ensures r.Fail? && r.error.InvalidAllowForValue? ==>
        r.error.value in stateHash.entries && !ValueKnown(r.error.value)
        && (forall f :: f in r.error.fields <==> f in stateHash.entries[r.error.value] && f !in Known())
        && exists i :: (0 <= i < |stateHash.keys| && stateHash.keys[i] == r.error.value
                        && forall j :: 0 <= j < i ==> ValueKnown(stateHash.keys[j]))
      ensures r.Fail? && r.error.InvalidAssociationNames? ==>
        forall a :: a in r.error.fields <==> (a !in associationNames &&
          exists v :: v in associationsConfig.entries && a in associationsConfig.entries[v].entries)
      ensures r.Fail? && r.error.AllowPreventConflict? ==>
        forall f :: f in r.error.fields <==> f in alwaysAllow && f in alwaysPrevent
    {
      if associationsConfig.entries == map[] then Fail(NoStatesDefined)
      else if ControlBy() !in responds then Fail(InvalidControlBy(ControlBy()))
      else if Minus(alwaysPrevent, Known()) != [] then Fail(InvalidAlwaysPrevent(Minus(alwaysPrevent, Known())))
      else if Minus(alwaysAllow, Known()) != [] then Fail(InvalidAlwaysAllow(Minus(alwaysAllow, Known())))
      else if FirstInvalidValue(stateHash.keys).Some? then
        var k := FirstInvalidValue(stateHash.keys).value;
        Fail(InvalidAllowForValue(k, Minus(stateHash.entries[k], Known())))
      else if Minus(Uniq(DefinedAssociationsOf(associationsConfig.keys)), associationNames) != [] then
        Fail(InvalidAssociationNames(Minus(Uniq(DefinedAssociationsOf(associationsConfig.keys)), associationNames)))
      else if Intersect(alwaysAllow, alwaysPrevent) != [] then Fail(AllowPreventConflict(Intersect(alwaysAllow, alwaysPrevent)))
      else Pass
    }

    /**
     * `confirm_specified_attributes(model)`: once confirmed it returns at
     * once; otherwise it runs the checks and sets the latch only when all pass.
     */
    method ConfirmSpecifiedAttributes(responds: set<Name>) returns (r: Outcome<ConfigError>)
      requires Valid()
      modifies this`configurationConfirmed
      ensures old(configurationConfirmed) ==> r.Pass? && configurationConfirmed
      ensures !old(configurationConfirmed) ==> r == Validate(responds) && configurationConfirmed == r.Pass?
    {
      if configurationConfirmed {
        return Pass;
      }
      var known := attributeNames + associationNames;
      if associationsConfig.entries == map[] {
        return Fail(NoStatesDefined);
      }
      if ControlBy() !in responds {
        return Fail(InvalidControlBy(ControlBy()));
      }
      var invalid := Minus(alwaysPrevent, known);
      if invalid != [] {
        return Fail(InvalidAlwaysPrevent(invalid));
      }
      invalid := Minus(alwaysAllow, known);
      if invalid != [] {
        return Fail(InvalidAlwaysAllow(invalid));
      }
      var firstInvalid := FindInvalidValue();
      if firstInvalid.Some? {
        return Fail(InvalidAllowForValue(firstInvalid.value, Minus(stateHash.entries[firstInvalid.value], known)));
      }
      invalid := Minus(Uniq(DefinedAssociationsOf(associationsConfig.keys)), associationNames);
      if invalid != [] {
        return Fail(InvalidAssociationNames(invalid));
      }
      var overlap := Intersect(alwaysAllow, alwaysPrevent);
      if overlap != [] {
        return Fail(AllowPreventConflict(overlap));
      }
      configurationConfirmed := true;
      return Pass;
    }
  }
}

=== FILE: guardian.dfy ===
/**
 * The instance side of a governed model: what a record consults before it is
 * saved and before a record is added to or removed from one of its
 * collection associations.
 */
module Guardian {
  import opened Wrappers
  import opened RubyArray
  import opened Status
  import opened ChumpChange

  /** What a governed record shows the guard when a hook runs. */
  datatype Snapshot = Snapshot(
    controlValue: Option<Name>,       // the control attribute's value; `None` is nil
    newRecord: bool,                  // `new_record?`
    changed: seq<string>,             // `changed`
    associations: Name -> AssocValue, // reading each association
    responds: set<Name>)              // the method names the record responds to

  /**
   * `current_control_value`: the control attribute's value as a symbol, with
   * nil passed through.
   */
  function CurrentControlValue(raw: Option<Name>): (r: Option<Name>)
    ensures r.None? <==> raw.None?
    ensures r.Some? ==> r.value.Sym? && r.value.text == raw.value.text
  {
    if raw.None? then None else Some(ToSym(raw.value))
  }

  /**
   * `allowable_change_fields(include_control_column: ...)`: the fields allowed
   * for the current value, with the control column deleted unless the option
   * is `true`.
   */
  function AllowableChangeFields(def: Definition, raw: Option<Name>, includeControlColumn: bool): (r: seq<Name>)
    reads def`alwaysAllow, def`alwaysPrevent, def`stateHash
    ensures NoDups(r)
    ensures forall f :: f in r <==>
      f in def.FieldsAllowedForValue(CurrentControlValue(raw)) && (includeControlColumn || f != def.ControlBy())
  {
    var attrs := def.FieldsAllowedForValue(CurrentControlValue(raw));
    if includeControlColumn then attrs else Minus(attrs, [def.ControlBy()])
  }

  /** Whether the save check runs at all. */
  predicate SaveChecked(newRecord: bool, latched: bool, disabled: bool) {
    !(newRecord || latched || disabled)
  }

  /** What a confirmed save check raises or passes with, and the association configuration it leaves. */
  datatype SaveEffect = SaveEffect(outcome: Outcome<Failure>, config: AssocConfigs)

  /**
   * The save check once the configuration is confirmed: the changed fields
   * first and, only when they pass, the associations, which prunes the
   * untracked ones from the stored configuration.
   */
  function Save(def: Definition, s: Snapshot): (e: SaveEffect)
    reads def`alwaysAllow, def`alwaysPrevent, def`stateHash, def`associationsConfig, def`untrackedAssociations
    requires def.Valid()
    ensures ConfigsValid(e.config)
  {
    var fields := def.CanModifyFields(s.changed, AllowableChangeFields(def, s.controlValue, true));
    if fields.Fail? then SaveEffect(fields, def.associationsConfig)
    else
      var cv := CurrentControlValue(s.controlValue);
      SaveEffect(AssociationCheck(def.associationsConfig, cv, def.untrackedAssociations, s.associations),
                 AssociationCheckConfig(def.associationsConfig, cv, def.untrackedAssociations))
  }

  /** A record of a governed model class. */
  class Record {
    var chumpChangeNewRecord: bool

    constructor ()
      ensures !chumpChangeNewRecord
    {
      chumpChangeNewRecord := false;
    }

    /** `allowable_change_fields_for_<association>` */
    method AllowableChangeFieldsFor(def: Definition, raw: Option<Name>, association: Name) returns (attrs: seq<Name>)
      requires def.Valid() && def.ReflectOnAssociation(association.text).Some?
      modifies def`associationsConfig
      ensures def.Valid()
      ensures attrs == Resolve(old(def.associationsConfig), CurrentControlValue(raw), ToSym(association),
                               def.LinkedAttributes(ToSym(association))).attributes.value
      ensures def.associationsConfig == WriteBack(old(def.associationsConfig), CurrentControlValue(raw), ToSym(association),
                                                  def.LinkedAttributes(ToSym(association)))
    {
      attrs := def.FieldsAllowedForAssociationForValue(CurrentControlValue(raw), ToSym(association));
    }

    /** `allowable_operations_for_<association>` */
    method AllowableOperationsFor(def: Definition, raw: Option<Name>, association: Name) returns (ops: seq<Name>)
      requires def.Valid() && def.ReflectOnAssociation(association.text).Some?
      modifies def`associationsConfig
      ensures def.Valid()
      ensures ops == AllowedOperations(Resolve(old(def.associationsConfig), CurrentControlValue(raw), ToSym(association),
                                               def.LinkedAttributes(ToSym(association))))
      ensures def.associationsConfig == WriteBack(old(def.associationsConfig), CurrentControlValue(raw), ToSym(association),
                                                  def.LinkedAttributes(ToSym(association)))
    {
      ops := def.OperationsAllowedForAssociationForValue(CurrentControlValue(raw), ToSym(association));
    }

    /**
     * `guard_before_create` / `guard_before_delete` for a record of class
     * `className` being added to or removed from a collection: skipped for a
     * new owner or while attribute control is disabled; otherwise the
     * configuration is confirmed and the action checked.
     */
    method GuardBefore(action: Name, def: Definition, status: ControlStatus, s: Snapshot, className: string, inf: Inflector)
      returns (r: Outcome<Failure>)
      requires action == Create || action == Delete
      requires def.Valid()
      modifies def`configurationConfirmed, def`associationsConfig
      ensures def.Valid()
      ensures s.newRecord || status.AttributeControlDisabled() ==> r == Pass && unchanged(def)
      ensures !(s.newRecord || status.AttributeControlDisabled()) && !old(def.configurationConfirmed)
              && old(def.Validate(s.responds)).Fail? ==>
        r == Fail(ConfigurationError(old(def.Validate(s.responds)).error)) && unchanged(def)
      ensures !(s.newRecord || status.AttributeControlDisabled())
              && (old(def.configurationConfirmed) || old(def.Validate(s.responds)).Pass?) ==>
        def.configurationConfirmed
        && r == old(def.AlterCheck(action, s.controlValue, className, inf))
        && def.associationsConfig == old(def.AlterConfig(action, s.controlValue, className, inf))
    {
      if s.newRecord || status.AttributeControlDisabled() {
        return Pass;
      }
      var confirmed := def.ConfirmSpecifiedAttributes(s.responds);
      if confirmed.Fail? {
        return Fail(ConfigurationError(confirmed.error));
      }
      r := def.CanAlterAssociationCollection(action, s.controlValue, className, inf);
    }

    /**
     * `review_model_value_changes`, the `before_save` hook: latches a new
     * record when per-instance confirmation is off, is skipped for a new or
     * latched record or while attribute control is disabled, and otherwise
     * confirms the configuration, then checks the changed fields, then the
     * associations.
     */
    method ReviewModelValueChanges(def: Definition, status: ControlStatus, s: Snapshot) returns (r: Outcome<Failure>)
      requires def.Valid()
      modifies this, def`configurationConfirmed, def`associationsConfig
      ensures def.Valid()
      ensures chumpChangeNewRecord == (old(chumpChangeNewRecord) || (s.newRecord && !def.confirmEverySavePerInstance))
      ensures !SaveChecked(s.newRecord, chumpChangeNewRecord, status.AttributeControlDisabled()) ==>
        r == Pass && unchanged(def)
      ensures SaveChecked(s.newRecord, chumpChangeNewRecord, status.AttributeControlDisabled())
              && !old(def.configurationConfirmed) && old(def.Validate(s.responds)).Fail? ==>
        r == Fail(ConfigurationError(old(def.Validate(s.responds)).error)) && unchanged(def)
      ensures SaveChecked(s.newRecord, chumpChangeNewRecord, status.AttributeControlDisabled())
              && (old(def.configurationConfirmed) || old(def.Validate(s.responds)).Pass?) ==>
        def.configurationConfirmed && SaveEffect(r, def.associationsConfig) == old(Save(def, s))
    {
      if s.newRecord && !def.confirmEverySavePerInstance {
        chumpChangeNewRecord := true;
      }
      if s.newRecord || chumpChangeNewRecord || status.AttributeControlDisabled() {
        return Pass;
      }
      r := ConfirmThenCheck(def, s);
    }

    /** The checked part of `review_model_value_changes`: confirm the configuration, then check the changes. */
    method ConfirmThenCheck(def: Definition, s: Snapshot) returns (r: Outcome<Failure>)
      requires def.Valid()
      modifies def`configurationConfirmed, def`associationsConfig
      ensures def.Valid()
      ensures !old(def.configurationConfirmed) && old(def.Validate(s.responds)).Fail? ==>
        r == Fail(ConfigurationError(old(def.Validate(s.responds)).error)) && unchanged(def)
      ensures old(def.configurationConfirmed) || old(def.Validate(s.responds)).Pass? ==>
        def.configurationConfirmed && SaveEffect(r, def.associationsConfig) == old(Save(def, s))
    {
      var confirmed := def.ConfirmSpecifiedAttributes(s.responds);
      if confirmed.Fail? {
        return Fail(ConfigurationError(confirmed.error));
      }
      r := CheckChanges(def, s);
    }

    /** The last two steps of `review_model_value_changes`: the changed fields, then the associations. */
    method CheckChanges(def: Definition, s: Snapshot) returns (r: Outcome<Failure>)
      requires def.Valid()
      modifies def`associationsConfig
      ensures def.Valid()
      ensures SaveEffect(r, def.associationsConfig) == old(Save(def, s))
    {
      var allowed := AllowableChangeFields(def, s.controlValue, true);
      r := def.CanModifyFields(s.changed, allowed);
      if r.Fail? {
        return;
      }
      r := def.CanModifyAssociationAttributes(CurrentControlValue(s.controlValue), s.associations);
    }
  }
}

=== FILE: properties.dfy ===
/**
 * Properties of the policy engine that relate several operations: what a
 * save decides about plain fields, how association policies default, and
 * which of the engine's in-place updates of its configuration can be
 * observed afterwards.
 */
module Properties {
  import opened Wrappers
  import opened RubyArray
  import opened RubyHash
  import opened ChumpChange
  import opened Guardian

  // ---------------------------------------------------------------------
  // Plain fields
  // ---------------------------------------------------------------------

  /**
   * The field part of a save: it passes exactly when every changed field is
   * always allowed, or is allowed for the current value and not always
   * prevented; an unconfigured or nil value allows every attribute.
   */
  lemma SaveFieldsDecision(d: Definition, s: Snapshot)
    ensures var cv := CurrentControlValue(s.controlValue);
      d.CanModifyFields(s.changed, AllowableChangeFields(d, s.controlValue, true)).Pass? <==>
      forall f :: f in SymsOf(s.changed) ==>
        f in d.alwaysAllow || (f !in d.alwaysPrevent && f in d.BaseFields(cv))
  {
  }

  /**
   * A field that is always prevented and not always allowed is rejected under
   * every control value, nil included, and the error names exactly that field.
   */
  lemma {:induction false} PreventedFieldRejectedEverywhere(d: Definition, raw: Option<Name>, field: string)
    requires Sym(field) in d.alwaysPrevent && Sym(field) !in d.alwaysAllow
    ensures var r := d.CanModifyFields([field], AllowableChangeFields(d, raw, true));
      r.Fail? && r.error.RestrictedFields? && NoDups(r.error.fields) && forall g :: g in r.error.fields <==> g == Sym(field)
  {
    assert SymsOf([field]) == [Sym(field)];
    assert Sym(field) in Intersect(d.alwaysPrevent, Minus([Sym(field)], d.alwaysAllow));
  }

  /** With no entry of its own, a control value allows every attribute that is not always prevented. */
  lemma UnconfiguredValueFailsOpen(d: Definition, v: Option<Name>)
    requires !d.Configured(v)
    ensures forall f :: f in d.FieldsAllowedForValue(v) <==>
      f !in d.alwaysPrevent && (f in d.alwaysAllow || f in d.attributeNames)
  {
  }

  /** Without the option, the control column is never among the allowed fields. */
  lemma ControlColumnDroppedOnRequest(d: Definition, raw: Option<Name>)
    ensures d.ControlBy() !in AllowableChangeFields(d, raw, false)
    ensures forall f :: f != d.ControlBy() ==>
      (f in AllowableChangeFields(d, raw, false) <==> f in AllowableChangeFields(d, raw, true))
  {
  }

  // ---------------------------------------------------------------------
  // Association policies
  // ---------------------------------------------------------------------

  /**
   * An association with nothing stored for it (or a nil or unconfigured
   * value) resolves to every linked attribute with both actions allowed.
   */
  lemma UnconfiguredAssociationDefaults(config: AssocConfigs, v: Option<Name>, assoc: Name, linked: seq<Name>)
    requires StoredPolicy(config, v, assoc) == Unset
    ensures Resolve(config, v, assoc, linked) == AssocPolicy(Some(linked), Some(true), Some(true))
    ensures AllowedOperations(Resolve(config, v, assoc, linked)) == [Create, Delete]
  {
    assert Permits(Resolve(config, v, assoc, linked), Create);
  }

  /** An association locked by `prevent_change_for` allows no attribute and no action. */
  lemma LockedAssociationAllowsNothing(config: AssocConfigs, v: Option<Name>, assoc: Name, linked: seq<Name>)
    requires StoredPolicy(config, v, assoc) == Locked
    ensures Resolve(config, v, assoc, linked) == Locked
    ensures AllowedOperations(Resolve(config, v, assoc, linked)) == []
  {
    var r := AllowedOperations(Resolve(config, v, assoc, linked));
    assert Create !in r && Delete !in r;
  }

  /** Symbols compare unequal to strings, so subtracting from symbols sees only the symbols subtracted. */
  ghost predicate SameSymbols(x: seq<Name>, y: seq<Name>) {
    forall n: Name :: n.Sym? ==> (n in x <==> n in y)
  }

  lemma {:induction false} MinusSeesOnlySymbols(c: seq<string>, x: seq<Name>, y: seq<Name>)
    requires SameSymbols(x, y)
    ensures Minus(SymsOf(c), x) == Minus(SymsOf(c), y)
  {
    if c != [] {
      assert SymsOf(c)[0] == Sym(c[0]);
      assert SymsOf(c)[1..] == SymsOf(c[1..]);
      MinusSeesOnlySymbols(c[1..], x, y);
    }
  }

  lemma CheckSeesOnlySymbols(obj: Option<LinkedRecord>, p: AssocPolicy, q: AssocPolicy, assoc: Name)
    requires SameSymbols(p.attributes.GetOr([]), q.attributes.GetOr([]))
    ensures CheckForDisallowedChanges(obj, p, assoc) == CheckForDisallowedChanges(obj, q, assoc)
  {
    if obj.Some? && !obj.value.newRecord {
      MinusSeesOnlySymbols(obj.value.changed, p.attributes.GetOr([]), q.attributes.GetOr([]));
    }
  }

  lemma {:induction false} CheckValueSeesOnlySymbols(value: AssocValue, p: AssocPolicy, q: AssocPolicy, assoc: Name)
    requires SameSymbols(p.attributes.GetOr([]), q.attributes.GetOr([]))
    ensures CheckValue(value, p, assoc) == CheckValue(value, q, assoc)
  {
    match value
    case NoRecord =>
      CheckSeesOnlySymbols(None, p, q, assoc);
    case Single(rec) =>
      CheckSeesOnlySymbols(Some(rec), p, q, assoc);
    case Collection(rs) =>
      CheckRecordsSeesOnlySymbols(rs, p, q, assoc);
  }

  lemma {:induction false} CheckRecordsSeesOnlySymbols(rs: seq<LinkedRecord>, p: AssocPolicy, q: AssocPolicy, assoc: Name)
    requires SameSymbols(p.attributes.GetOr([]), q.attributes.GetOr([]))
    ensures CheckRecords(rs, p, assoc) == CheckRecords(rs, q, assoc)
  {
    if rs != [] {
      CheckSeesOnlySymbols(Some(rs[0]), p, q, assoc);
      CheckRecordsSeesOnlySymbols(rs[1..], p, q, assoc);
    }
  }

  /** Two tables that hold the same keys and, per key, the same symbols among the attributes. */
  ghost predicate AlikeOn(keys: seq<Name>, t1: AssocTable, t2: AssocTable) {
    forall k :: k in keys ==> (k in t1.entries && k in t2.entries &&
      SameSymbols(t1.entries[k].attributes.GetOr([]), t2.entries[k].attributes.GetOr([])))
  }

  lemma {:induction false} CheckTableSeesOnlySymbols(keys: seq<Name>, t1: AssocTable, t2: AssocTable, lv: Name -> AssocValue)
    requires AlikeOn(keys, t1, t2)
    ensures CheckTable(keys, t1, lv) == CheckTable(keys, t2, lv)
  {
    if keys != [] {
      CheckValueSeesOnlySymbols(lv(keys[0]), t1.entries[keys[0]], t2.entries[keys[0]], keys[0]);
      assert AlikeOn(keys[1..], t1, t2);
      CheckTableSeesOnlySymbols(keys[1..], t1, t2, lv);
    }
  }

  /**
   * The defaults `config_for_association` writes back cannot change a later
   * resolution, provided the same association always resolves with the same
   * linked attributes.
   */
  lemma WriteBackKeepsResolution(config: AssocConfigs, v: Option<Name>, assoc: Name, linked: seq<Name>,
                                 v2: Option<Name>, assoc2: Name, linked2: seq<Name>)
    requires ConfigsValid(config)
    requires ToSym(assoc2) == ToSym(assoc) ==> linked2 == linked
    ensures Resolve(WriteBack(config, v, assoc, linked), v2, assoc2, linked2) == Resolve(config, v2, assoc2, linked2)
  {
    var c := WriteBack(config, v, assoc, linked);
    if v.Some? && v.value in config.entries && ToSym(assoc) in config.entries[v.value].entries {
      var table := config.entries[v.value];
      assert c.Get(v.value) == Some(table.Put(ToSym(assoc), Resolve(config, v, assoc, linked)));
      if v2 == v && ToSym(assoc2) == ToSym(assoc) {
        assert StoredPolicy(c, v2, assoc2) == Resolve(config, v, assoc, linked);
      } else if v2.Some? {
        assert c.Get(v2.value) == config.Get(v2.value) || v2 == v;
        if v2 == v {
          assert c.entries[v2.value].Get(ToSym(assoc2)) == table.Get(ToSym(assoc2));
        }
      }
    }
  }

  /**
   * The defaults `config_for_association` writes back cannot change a later
   * save-time association check: an `attributes` default holds the linked
   * class's attribute names as strings, and the check compares symbols, so
   * it rejects every change exactly as the missing key does.
   */
  lemma WriteBackKeepsAssociationCheck(config: AssocConfigs, v: Option<Name>, assoc: Name, linked: seq<Name>,
                                       cv: Option<Name>, untracked: seq<Name>, lv: Name -> AssocValue)
    requires ConfigsValid(config)
    requires forall n :: n in linked ==> n.Str?
    ensures AssociationCheck(WriteBack(config, v, assoc, linked), cv, untracked, lv) == AssociationCheck(config, cv, untracked, lv)
  {
    if cv.Some? {
      var s := ToSym(cv.value);
      var t1 := TableFor(config, s);
      var t2 := TableFor(WriteBack(config, v, assoc, linked), s);
      WriteBackTableAlike(config, v, assoc, linked, s);
      var u1 := t1.DeleteEach(untracked);
      var u2 := t2.DeleteEach(untracked);
      DeleteEachKeepsAlike(t1, t2, untracked);
      CheckTableSeesOnlySymbols(u1.keys, u1, u2, lv);
    }
  }

  /** After the write-back, every table holds the same keys and the same symbols as before. */
  lemma WriteBackTableAlike(config: AssocConfigs, v: Option<Name>, assoc: Name, linked: seq<Name>, s: Name)
    requires ConfigsValid(config)
    requires forall n :: n in linked ==> n.Str?
    ensures var t1 := TableFor(config, s);
      var t2 := TableFor(WriteBack(config, v, assoc, linked), s);
      t1.keys == t2.keys && AlikeOn(t1.keys, t1, t2)
  {
    var c := WriteBack(config, v, assoc, linked);
    var t1 := TableFor(config, s);
    var t2 := TableFor(c, s);
    if v.Some? && v.value in config.entries && ToSym(assoc) in config.entries[v.value].entries && s == v.value {
      var stored := config.entries[v.value].entries[ToSym(assoc)];
      assert t2 == t1.Put(ToSym(assoc), Resolve(config, v, assoc, linked));
      assert SameSymbols(stored.attributes.GetOr([]), Resolve(config, v, assoc, linked).attributes.GetOr([]));
      forall k | k in t1.keys
        ensures k in t1.entries && k in t2.entries
        ensures SameSymbols(t1.entries[k].attributes.GetOr([]), t2.entries[k].attributes.GetOr([]))
      {
        assert t2.Get(k) == if k == ToSym(assoc) then Some(Resolve(config, v, assoc, linked)) else t1.Get(k);
      }
    } else if v.Some? && v.value in config.entries && ToSym(assoc) in config.entries[v.value].entries {
      assert c.Get(s) == config.Get(s);
    }
  }

  /** Deleting the same keys from two alike tables leaves two alike tables with the same keys. */
  lemma DeleteEachKeepsAlike(t1: AssocTable, t2: AssocTable, untracked: seq<Name>)
    requires t1.Valid() && t2.Valid()
    requires t1.keys == t2.keys && AlikeOn(t1.keys, t1, t2)
    ensures t1.DeleteEach(untracked).keys == t2.DeleteEach(untracked).keys
    ensures AlikeOn(t1.DeleteEach(untracked).keys, t1.DeleteEach(untracked), t2.DeleteEach(untracked))
  {
    var u1 := t1.DeleteEach(untracked);
    var u2 := t2.DeleteEach(untracked);
    forall k | k in u1.keys
      ensures k in u1.entries && k in u2.entries
      ensures SameSymbols(u1.entries[k].attributes.GetOr([]), u2.entries[k].attributes.GetOr([]))
    {
      assert u1.Get(k) == t1.Get(k) && u2.Get(k) == t2.Get(k);
    }
  }

  /**
   * The save-time association check deletes the untracked associations from
   * the stored table of the value it checked, so afterwards they resolve to
   * the permissive defaults whatever was declared for them.
   */
  lemma PruningUnlocksUntracked(config: AssocConfigs, v: Name, untracked: seq<Name>, assoc: Name, linked: seq<Name>)
    requires ConfigsValid(config)
    requires assoc in untracked && assoc.Sym?
    ensures Resolve(AssociationCheckConfig(config, Some(v), untracked), Some(ToSym(v)), assoc, linked)
            == AssocPolicy(Some(linked), Some(true), Some(true))
    ensures AllowedOperations(Resolve(AssociationCheckConfig(config, Some(v), untracked), Some(ToSym(v)), assoc, linked))
            == [Create, Delete]
  {
    var c := AssociationCheckConfig(config, Some(v), untracked);
    if ToSym(v) in c.entries {
      assert c.entries[ToSym(v)] == config.entries[ToSym(v)].DeleteEach(untracked);
      assert c.entries[ToSym(v)].Get(assoc) == None;
    }
    UnconfiguredAssociationDefaults(c, Some(ToSym(v)), assoc, linked);
  }

  // ---------------------------------------------------------------------
  // A worked configuration
  // ---------------------------------------------------------------------

  const State: Name := Sym("state")
  const Initiated: Name := Sym("initiated")
  const Completed: Name := Sym("completed")

  /** The definition the DSL block of a widget controlled by `:state` leaves behind (built by `BuildWidget`). */
  ghost predicate WidgetDefinition(d: Definition)
    reads d`alwaysPrevent, d`alwaysAllow, d`stateHash
  {
    d.controlColumn == State
    && d.alwaysPrevent == [CreatedAt, Sym("name")] && d.alwaysAllow == [State]
    && d.stateHash.Get(Initiated) == Some([Sym("one"), Sym("two"), Sym("three")])
    && d.stateHash.Get(Completed) == Some([Sym("four"), Sym("five")])
  }

  /**
   * The widget's rules built through the class-level declarations: `control_by:
   * :state`, `always_prevent_change :name`, and `allow_change_for` the
   * initiated and completed states.
   */
  method BuildWidget() returns (d: Definition)
    ensures WidgetDefinition(d)
  {
    var columns := ["name", "state", "one", "two", "three", "four", "five", "created_at"];
    assert SymsOf(columns)[1] == State;
    var r := Definition.New(columns, [], Some(State));
    d := r.value;
    d.AlwaysPreventChange([Sym("name")]);
    assert ToSyms([Initiated]) == [Initiated] && ToSyms([Completed]) == [Completed];
    d.AllowChangeFor([Initiated], AllowOptions(Some([Sym("one"), Sym("two"), Sym("three")]), None));
    d.AllowChangeFor([Completed], AllowOptions(Some([Sym("four"), Sym("five")]), None));
  }

  /** While initiated, the widget may change `one`, `two`, `three` and its state. */
  lemma WidgetInitiatedFields(d: Definition)
    requires WidgetDefinition(d)
    ensures forall f :: f in AllowableChangeFields(d, Some(Str("initiated")), true) <==>
      f in [Sym("one"), Sym("two"), Sym("three"), State]
  {
    assert CurrentControlValue(Some(Str("initiated"))) == Some(Initiated);
    assert d.BaseFields(Some(Initiated)) == [Sym("one"), Sym("two"), Sym("three")];
  }

  /** Changing `four` while initiated is rejected, naming `four`. */
  lemma {:induction false} WidgetInitiatedRejectsFour(d: Definition)
    requires WidgetDefinition(d)
    ensures var r := d.CanModifyFields(["four"], AllowableChangeFields(d, Some(Str("initiated")), true));
      r.Fail? && r.error.RestrictedFields? && forall g :: g in r.error.fields <==> g == Sym("four")
  {
    var allowed := AllowableChangeFields(d, Some(Str("initiated")), true);
    WidgetInitiatedFields(d);
    assert Sym("four") !in allowed;
    assert SymsOf(["four"]) == [Sym("four")];
    assert forall f :: f in SymsOf(["four"]) ==> f !in d.alwaysPrevent;
  }

  /** Moving to `completed` while changing `four` and `five` passes. */
  lemma WidgetCompletionPasses(d: Definition)
    requires WidgetDefinition(d)
    ensures d.CanModifyFields(["state", "four", "five"], AllowableChangeFields(d, Some(Str("completed")), true)) == Pass
  {
    assert CurrentControlValue(Some(Str("completed"))) == Some(Completed);
    assert d.BaseFields(Some(Completed)) == [Sym("four"), Sym("five")];
    assert SymsOf(["state", "four", "five"]) == [State, Sym("four"), Sym("five")];
  }
}

=== FILE: ruby_array.dfy ===
/**
 * The Ruby Array operations the policy engine is written in: `a - b`,
 * `a & b` and `uniq`, all of which keep the order of their left operand.
 */
module RubyArray {

  /** No element occurs twice. */
  ghost predicate NoDups<T>(s: seq<T>) {
    forall i, j :: 0 <= i < j < |s| ==> s[i] != s[j]
  }

  /** `a - b`: the elements of `a` that do not occur in `b`, in order, repetitions kept. */
  function Minus<T(==, !new)>(a: seq<T>, b: seq<T>): (r: seq<T>)
    ensures forall x :: x in r <==> x in a && x !in b
    ensures |r| <= |a|
    ensures NoDups(a) ==> NoDups(r)
    ensures r == [] <==> forall x :: x in a ==> x in b
  {
    if a == [] then []
    else (if a[0] in b then [] else [a[0]]) + Minus(a[1..], b)
  }

  /** The elements of `a` that occur in `b`, in order, repetitions kept. */
  function Keep<T(==, !new)>(a: seq<T>, b: seq<T>): (r: seq<T>)
    ensures forall x :: x in r <==> x in a && x in b
  {
    if a == [] then []
    else (if a[0] in b then [a[0]] else []) + Keep(a[1..], b)
  }

  /** `uniq`: the first occurrence of every element, in order. */
  function Uniq<T(==, !new)>(a: seq<T>): (r: seq<T>)
    ensures forall x :: x in r <==> x in a
    ensures NoDups(r)
    ensures |r| <= |a|
  {
    if a == [] then []
    else
      var u := Uniq(a[..|a| - 1]);
      if a[|a| - 1] in u then u else u + [a[|a| - 1]]
  }

  /** `a & b`: the elements common to both, without duplicates, in the order of `a`. */
  function Intersect<T(==, !new)>(a: seq<T>, b: seq<T>): (r: seq<T>)
    ensures forall x :: x in r <==> x in a && x in b
    ensures NoDups(r)
    ensures r == [] <==> forall x :: x in a ==> x !in b
  {
    var r := Uniq(Keep(a, b));
    assert r != [] ==> r[0] in r;
    r
  }

  /** Subtracting elements that do not occur leaves the array as it was. */
  lemma {:induction false} MinusOfDisjoint<T(!new)>(a: seq<T>, b: seq<T>)
    requires forall x :: x in a ==> x !in b
    ensures Minus(a, b) == a
  {
    if a != [] {
      MinusOfDisjoint(a[1..], b);
      assert a == [a[0]] + a[1..];
    }
  }
}

=== FILE: ruby_hash.dfy ===
/**
 * A Ruby Hash: a finite map that remembers the order in which its keys were
 * first inserted. Assigning to an existing key keeps its position; `each`,
 * `keys` and `values` follow that order.
 */
module RubyHash {
  import opened Wrappers
  import opened RubyArray

  datatype Dict<K(==, !new), V> = Dict(keys: seq<K>, entries: map<K, V>) {

    /** Every key is listed exactly once, in insertion order. */
    ghost predicate Valid() {
      NoDups(keys) && forall k :: k in entries <==> k in keys
    }

    /** `h[k]`, with `nil` for a missing key. */
    function Get(k: K): Option<V> {
      if k in entries then Some(entries[k]) else None
    }

    /** `h[k] = v` */
    function Put(k: K, v: V): (d: Dict<K, V>)
      requires Valid()
      ensures d.Valid()
      ensures d.Get(k) == Some(v)
      ensures forall j :: j != k ==> d.Get(j) == Get(j)
      ensures k in entries ==> d.keys == keys
      ensures k !in entries ==> d.keys == keys + [k]
    {
      Dict(if k in entries then keys else keys + [k], entries[k := v])
    }

    /** `h.delete(k)` */
    function Delete(k: K): (d: Dict<K, V>)
      requires Valid()
      ensures d.Valid()
      ensures d.Get(k) == None
      ensures forall j :: j != k ==> d.Get(j) == Get(j)
      ensures d.keys == Minus(keys, [k])
    {
      Dict(Minus(keys, [k]), entries - {k})
    }

    /** `ks.each { |k| h[k] = v }` */
    function PutEach(ks: seq<K>, v: V): (d: Dict<K, V>)
      requires Valid()
      ensures d.Valid()
      ensures forall k :: d.Get(k) == if k in ks then Some(v) else Get(k)
      ensures keys <= d.keys
      decreases |ks|
    {
      if ks == [] then this
      else
        var e := PutEach(ks[..|ks| - 1], v);
        var d := e.Put(ks[|ks| - 1], v);
        assert e.keys <= d.keys;
        d
    }

    /** `ks.each { |k| h.delete(k) }` */
    function DeleteEach(ks: seq<K>): (d: Dict<K, V>)
      requires Valid()
      ensures d.Valid()
      ensures forall k :: d.Get(k) == if k in ks then None else Get(k)
      ensures d.keys == Minus(keys, ks)
      decreases |ks|
    {
      if ks == [] then
        MinusOfDisjoint(keys, ks);
        this
      else
        var d := DeleteEach(ks[..|ks| - 1]).Delete(ks[|ks| - 1]);
        MinusMinus(keys, ks[..|ks| - 1], ks[|ks| - 1]);
        assert ks == ks[..|ks| - 1] + [ks[|ks| - 1]];
        d
    }
  }

  /** Assigning one more key extends a `PutEach` by one `Put`. */
  lemma PutEachStep<K(!new), V>(d: Dict<K, V>, ks: seq<K>, v: V, i: nat)
    requires d.Valid() && i < |ks|
    ensures d.PutEach(ks[..i + 1], v) == d.PutEach(ks[..i], v).Put(ks[i], v)
  {
    assert ks[..i + 1][..i] == ks[..i];
  }

  /** Deleting one more key extends a `DeleteEach` by one `Delete`. */
  lemma DeleteEachStep<K(!new), V>(d: Dict<K, V>, ks: seq<K>, i: nat)
    requires d.Valid() && i < |ks|
    ensures d.DeleteEach(ks[..i + 1]) == d.DeleteEach(ks[..i]).Delete(ks[i])
  {
    assert ks[..i + 1][..i] == ks[..i];
  }

  /** After deleting `ks`, exactly the other keys remain, with their values. */
  lemma DeleteEachEntries<K(!new), V>(d: Dict<K, V>, ks: seq<K>)
    requires d.Valid()
    ensures forall k :: k in d.DeleteEach(ks).entries <==> k in d.entries && k !in ks
    ensures forall k :: k in d.DeleteEach(ks).entries ==> d.DeleteEach(ks).entries[k] == d.entries[k]
  {
    forall k
      ensures k in d.DeleteEach(ks).entries <==> k in d.entries && k !in ks
      ensures k in d.DeleteEach(ks).entries ==> d.DeleteEach(ks).entries[k] == d.entries[k]
    {
      assert d.DeleteEach(ks).Get(k) == if k in ks then None else d.Get(k);
    }
  }

  /** The empty Hash `{}`. */
  function EmptyDict<K(==, !new), V>(): (d: Dict<K, V>)
    ensures d.Valid() && d.keys == [] && d.entries == map[]
  {
    Dict([], map[])
  }

  /** Subtracting two arrays in turn is subtracting their concatenation. */
  lemma {:induction false} MinusMinus<T(!new)>(a: seq<T>, b: seq<T>, x: T)
    ensures Minus(Minus(a, b), [x]) == Minus(a, b + [x])
  {
    if a != [] {
      var head := if a[0] in b then [] else [a[0]];
      calc {
        Minus(Minus(a, b), [x]);
        { MinusAppend(head, Minus(a[1..], b), [x]); }
        Minus(head, [x]) + Minus(Minus(a[1..], b), [x]);
        { MinusMinus(a[1..], b, x); }
        Minus(head, [x]) + Minus(a[1..], b + [x]);
        (if a[0] in b + [x] then [] else [a[0]]) + Minus(a[1..], b + [x]);
        Minus(a, b + [x]);
      }
    }
  }

  /** Subtraction distributes over concatenation. */
  lemma {:induction false} MinusAppend<T(!new)>(p: seq<T>, q: seq<T>, c: seq<T>)
    ensures Minus(p + q, c) == Minus(p, c) + Minus(q, c)
  {
    if p == [] {
      assert p + q == q;
    } else {
      var head := if p[0] in c then [] else [p[0]];
      var pq := p + q;
      assert pq[0] == p[0] && pq[1..] == p[1..] + q;
      calc {
        Minus(pq, c);
        head + Minus(pq[1..], c);
        { MinusAppend(p[1..], q, c); }
        head + (Minus(p[1..], c) + Minus(q, c));
        (head + Minus(p[1..], c)) + Minus(q, c);
        Minus(p, c) + Minus(q, c);
      }
    }
  }
}

=== FILE: status.dfy ===
/**
 * The enforcement toggle: one flag, `nil` until first set, that the scoped
 * helpers save, overwrite and restore on every exit of the block they run.
 */
module Status {
  import opened Wrappers

  /** The value of the toggle: `nil`, `true` (disabled) or `false` (enabled). */
  type Flag = Option<bool>

  /** `attribute_control_disabled?` on a flag value. */
  predicate IsDisabled(f: Flag) {
    f == Some(true)
  }

  /** `attribute_control_enabled?` on a flag value. */
  predicate IsEnabled(f: Flag) {
    f == Some(false)
  }

  /**
   * The block handed to a scoped helper, as an abstract action: a sequence of
   * toggle operations (possibly nested scoped helpers) ending in a value or
   * in an exception.
   */
  datatype Block =
    | Return(value: int)
    | Raise(error: string)
    | Then(step: Step, rest: Block)

  datatype Step =
    | DisableStep
    | EnableStep
    | WithoutStep(body: Option<Block>)
    | WithStep(body: Option<Block>)

  /** How a block or a helper left: with its result (`nil` if none), or raising. */
  datatype Exit = Normal(result: Option<int>) | Exceptional(error: string)

  function BlockSize(b: Block): nat {
    match b
    case Return(_) => 1
    case Raise(_) => 1
    case Then(s, rest) => StepSize(s) + BlockSize(rest) + 1
  }

  function StepSize(s: Step): nat {
    match s
    case WithoutStep(body) => BodySize(body) + 1
    case WithStep(body) => BodySize(body) + 1
    case _ => 1
  }

  function BodySize(body: Option<Block>): nat {
    if body.None? then 0 else BlockSize(body.value)
  }

  /** The flag and exit after running `b` from flag `f`; an exception skips the rest. */
  function Run(b: Block, f: Flag): (Flag, Exit)
    decreases BlockSize(b), 0
  {
    match b
    case Return(v) => (f, Normal(Some(v)))
    case Raise(e) => (f, Exceptional(e))
    case Then(s, rest) =>
      var (f1, x) := RunStep(s, f);
      if x.Exceptional? then (f1, x) else Run(rest, f1)
  }

  function RunStep(s: Step, f: Flag): (Flag, Exit)
    decreases StepSize(s), 1
  {
    match s
    case DisableStep => (Some(true), Normal(Some(0)))
    case EnableStep => (Some(false), Normal(Some(0)))
    case WithoutStep(body) => Without(body, f)
    case WithStep(body) => With(body, f)
  }

  /** `without_attribute_control`: the flag and exit of the helper started from flag `f`. */
  function Without(body: Option<Block>, f: Flag): (r: (Flag, Exit))
    decreases BodySize(body), 2
    ensures !IsDisabled(f) ==> r.0 == Some(false)
    ensures IsDisabled(f) && body.None? ==> IsDisabled(r.0)
    ensures IsDisabled(f) && body.Some? ==> r.0 == Run(body.value, Some(true)).0
    ensures body.None? ==> r.1 == Normal(None)
    ensures body.Some? ==> r.1 == Run(body.value, Some(true)).1
  {
    var previouslyDisabled := IsDisabled(f);
    var (f1, x) := if body.None? then (Some(true), Normal(None)) else Run(body.value, Some(true));
    (if previouslyDisabled then f1 else Some(false), x)
  }

  /** `with_attribute_control`: the flag and exit of the helper started from flag `f`. */
  function With(body: Option<Block>, f: Flag): (r: (Flag, Exit))
    decreases BodySize(body), 2
    ensures IsDisabled(f) ==> r.0 == Some(true)
    ensures !IsDisabled(f) && body.None? ==> IsEnabled(r.0)
    ensures !IsDisabled(f) && body.Some? ==> r.0 == Run(body.value, Some(false)).0
    ensures body.None? ==> r.1 == Normal(None)
    ensures body.Some? ==> r.1 == Run(body.value, Some(false)).1
  {
    var previouslyDisabled := IsDisabled(f);
    var (f1, x) := if body.None? then (Some(false), Normal(None)) else Run(body.value, Some(false));
    (if previouslyDisabled then Some(true) else f1, x)
  }

  /** A block whose only toggling goes through the scoped helpers. */
  predicate Scoped(b: Block)
    decreases BlockSize(b), 0
  {
    match b
    case Return(_) => true
    case Raise(_) => true
    case Then(s, rest) => ScopedStep(s) && Scoped(rest)
  }

  predicate ScopedStep(s: Step)
    decreases StepSize(s), 1
  {
    match s
    case DisableStep => false
    case EnableStep => false
    case WithoutStep(body) => body.None? || (assert BodySize(body) == BlockSize(body.value); Scoped(body.value))
    case WithStep(body) => body.None? || (assert BodySize(body) == BlockSize(body.value); Scoped(body.value))
  }

  /** A scoped block, normal or raising, leaves `attribute_control_disabled?` as it found it. */
  lemma {:induction false} ScopedBlockPreservesDisabled(b: Block, f: Flag)
    requires Scoped(b)
    ensures IsDisabled(Run(b, f).0) == IsDisabled(f)
    decreases BlockSize(b)
  {
    match b
    case Return(_) =>
    case Raise(_) =>
    case Then(s, rest) =>
      var f1 := RunStep(s, f).0;
      assert BlockSize(b) > StepSize(s);
      match s {
        case WithoutStep(body) =>
          if body.Some? && IsDisabled(f) {
            assert StepSize(s) == BodySize(body) + 1 && BodySize(body) == BlockSize(body.value);
            ScopedBlockPreservesDisabled(body.value, Some(true));
          }
        case WithStep(body) =>
          if body.Some? && !IsDisabled(f) {
            assert StepSize(s) == BodySize(body) + 1 && BodySize(body) == BlockSize(body.value);
            ScopedBlockPreservesDisabled(body.value, Some(false));
          }
      }
      assert IsDisabled(f1) == IsDisabled(f);
      if RunStep(s, f).1.Normal? {
        ScopedBlockPreservesDisabled(rest, f1);
      }
  }

  /** A scoped block started from a set flag, normal or raising, leaves that exact flag. */
  lemma {:induction false} ScopedBlockKeepsSetFlag(b: Block, f: Flag)
    requires Scoped(b) && f.Some?
    ensures Run(b, f).0 == f
    decreases BlockSize(b)
  {
    match b
    case Return(_) =>
    case Raise(_) =>
    case Then(s, rest) =>
      assert ScopedStep(s) && BlockSize(b) > StepSize(s);
      match s {
        case WithoutStep(body) =>
          if body.Some? && IsDisabled(f) {
            assert StepSize(s) == BodySize(body) + 1 && BodySize(body) == BlockSize(body.value);
            ScopedBlockKeepsSetFlag(body.value, Some(true));
          }
          assert f == Some(f.value) && (f.value <==> IsDisabled(f));
        case WithStep(body) =>
          if body.Some? && !IsDisabled(f) {
            assert StepSize(s) == BodySize(body) + 1 && BodySize(body) == BlockSize(body.value);
            ScopedBlockKeepsSetFlag(body.value, Some(false));
          }
          assert f == Some(f.value) && (f.value <==> IsDisabled(f));
      }
      if RunStep(s, f).1.Normal? {
        ScopedBlockKeepsSetFlag(rest, f);
      }
  }

  /**
   * `without_attribute_control` around a scoped block: on every exit, normal
   * or raising, the flag is disabled exactly when it was disabled before, and
   * a flag that was not disabled (even `nil`) comes back enabled.
   */
  lemma WithoutRestores(body: Option<Block>, f: Flag)
    requires body.None? || Scoped(body.value)
    ensures IsDisabled(Without(body, f).0) == IsDisabled(f)
    ensures !IsDisabled(f) ==> IsEnabled(Without(body, f).0)
  {
    if body.Some? {
      ScopedBlockPreservesDisabled(body.value, Some(true));
    }
  }

  /**
   * `with_attribute_control` around a scoped block: on every exit the flag is
   * disabled again exactly when it was disabled before, and a flag that was
   * not disabled (even `nil`) stays enabled.
   */
  lemma WithRestores(body: Option<Block>, f: Flag)
    requires body.None? || Scoped(body.value)
    ensures IsDisabled(With(body, f).0) == IsDisabled(f)
    ensures !IsDisabled(f) ==> IsEnabled(With(body, f).0)
  {
    if body.Some? {
      ScopedBlockKeepsSetFlag(body.value, Some(false));
    }
  }

  /**
   * `without` nested in `without`: when the inner helper exits, control is
   * still disabled, so the rest of the outer block runs disabled (or the
   * inner exception leaves the outer helper); only the outermost exit
   * enables it again.
   */
  lemma NestedWithoutEnablesOnce(inner: Option<Block>, rest: Block, f: Flag)
    requires inner.None? || Scoped(inner.value)
    requires !IsDisabled(f)
    ensures IsDisabled(Without(inner, Some(true)).0)
    ensures Without(Some(Then(WithoutStep(inner), rest)), f).0 == Some(false)
    ensures Without(inner, Some(true)).1.Normal? ==>
      Without(Some(Then(WithoutStep(inner), rest)), f).1 == Run(rest, Some(true)).1
    ensures Without(inner, Some(true)).1.Exceptional? ==>
      Without(Some(Then(WithoutStep(inner), rest)), f).1 == Without(inner, Some(true)).1
  {
    WithoutRestores(inner, Some(true));
    var outer := Then(WithoutStep(inner), rest);
    assert Without(Some(outer), f).1 == Run(outer, Some(true)).1;
    assert RunStep(WithoutStep(inner), Some(true)) == Without(inner, Some(true));
    assert Without(inner, Some(true)).0 == Some(true);
  }

  /** The per-thread toggle, one flag per object. */
  class ControlStatus {
    var flag: Flag

    constructor ()
      ensures flag == None
      ensures !AttributeControlDisabled() && !AttributeControlEnabled()
    {
      flag := None;
    }

    predicate AttributeControlDisabled()
      reads this
      ensures AttributeControlDisabled() ==> !IsEnabled(flag)
      ensures flag.None? ==> !AttributeControlDisabled()
    {
      IsDisabled(flag)
    }

    predicate AttributeControlEnabled()
      reads this
      ensures AttributeControlEnabled() ==> !IsDisabled(flag)
      ensures flag.None? ==> !AttributeControlEnabled()
    {
      IsEnabled(flag)
    }

    method DisableAttributeControl()
      modifies this
      ensures flag == Some(true)
      ensures AttributeControlDisabled() && !AttributeControlEnabled()
    {
      flag := Some(true);
    }

    method EnableAttributeControl()
      modifies this
      ensures flag == Some(false)
      ensures AttributeControlEnabled() && !AttributeControlDisabled()
    {
      flag := Some(false);
    }

    /** `without_attribute_control { body }` */
    method WithoutAttributeControl(body: Option<Block>) returns (x: Exit)
      modifies this
      decreases BodySize(body), 2
      ensures (flag, x) == Without(body, old(flag))
    {
      var previouslyDisabled := AttributeControlDisabled();
      DisableAttributeControl();
      x := Normal(None);
      if body.Some? {
        x := Yield(body.value);
      }
      // the `ensure` clause runs on the normal and on the exceptional exit alike
      if !previouslyDisabled {
        EnableAttributeControl();
      }
    }

    /** `with_attribute_control { body }` */
    method WithAttributeControl(body: Option<Block>) returns (x: Exit)
      modifies this
      decreases BodySize(body), 2
      ensures (flag, x) == With(body, old(flag))
    {
      var previouslyDisabled := AttributeControlDisabled();
      EnableAttributeControl();
      x := Normal(None);
      if body.Some? {
        x := Yield(body.value);
      }
      if previouslyDisabled {
        DisableAttributeControl();
      }
    }

    /** Runs the block handed to a helper (`yield`). */
    method Yield(b: Block) returns (x: Exit)
      modifies this
      decreases BlockSize(b), 0
      ensures (flag, x) == Run(b, old(flag))
    {
      match b
      case Return(v) =>
        x := Normal(Some(v));
      case Raise(e) =>
        x := Exceptional(e);
      case Then(s, rest) =>
        x := Perform(s);
        if x.Normal? {
          x := Yield(rest);
        }
    }

    method Perform(s: Step) returns (x: Exit)
      modifies this
      decreases StepSize(s), 1
      ensures (flag, x) == RunStep(s, old(flag))
    {
      match s
      case DisableStep =>
        DisableAttributeControl();
        x := Normal(Some(0));
      case EnableStep =>
        EnableAttributeControl();
        x := Normal(Some(0));
      case WithoutStep(body) =>
        x := WithoutAttributeControl(body);
      case WithStep(body) =>
        x := WithAttributeControl(body);
    }
  }
}

=== FILE: wrappers.dfy ===
/** Option, Result and outcome types for the engine's raises and nils. */
module Wrappers {

  /** A Ruby value that may be `nil`. */
  datatype Option<+T> = None | Some(value: T) {

    /** `value || default` */
    function GetOr(default: T): T {
      match this
      case Some(v) => v
      case None => default
    }
  }

  /** A value, or the exception raised instead of producing it. */
  datatype Result<+R, +E> = Success(value: R) | Failure(error: E)

  /** A check that either passes or raises. */
  datatype Outcome<+E> = Pass | Fail(error: E)

  /**
   * `xs.each { |x| check(x) }` where each check may raise: passes when every
   * element passes, and otherwise raises what the first failing element raised.
   */
  function FirstFailure<T, E>(xs: seq<T>, check: T -> Outcome<E>): (r: Outcome<E>)
    ensures r.Pass? <==> forall i :: 0 <= i < |xs| ==> check(xs[i]).Pass?
    ensures r.Fail? ==> exists i :: (0 <= i < |xs| && r == check(xs[i])
      && forall j :: 0 <= j < i ==> check(xs[j]).Pass?)
  {
    if xs == [] then Pass
    else if check(xs[0]).Fail? then check(xs[0])
    else
      var r := FirstFailure(xs[1..], check);
      assert forall i :: 1 <= i < |xs| ==> xs[i] == xs[1..][i - 1];
      r
  }

  /** Running the checks from position `j` on is checking `xs[j]` and then the rest. */
  lemma FirstFailureFrom<T, E>(xs: seq<T>, check: T -> Outcome<E>, j: nat)
    requires j < |xs|
    ensures FirstFailure(xs[j..], check) == if check(xs[j]).Fail? then check(xs[j]) else FirstFailure(xs[j + 1..], check)
  {
    assert xs[j..][0] == xs[j] && xs[j..][1..] == xs[j + 1..];
  }
}
